=== FILE: README.md ===
# term_weather in Dafny

A model of the core of term_weather, a terminal viewer for yr.no weather
forecasts. For a location such as `Noreg/Telemark/Sauherad/Gvarv` it:

- loads two XML documents, the forecast and the short-term precipitation
  forecast, from a per-location cache directory, or from the server when the
  cache has no usable copy;
- extracts a snapshot of the first forecast period and the precipitation
  series from them;
- prints the "now" view: a one-line summary, a precipitation chart and the
  credit line required by yr.no.

A small configuration file keeps saved places and names one of them as the
default place.

Modules:

- `Results` (results.dfy): `Option`, `Result` and the error kinds. The
  exceptions the model covers become a `Failure`; those it does not are
  listed under "Left out".
- `Timestamps` (timestamps.dfy): date-times as tuples, with the strict order
  that the staleness check uses.
- `CacheDirs` (cache_dirs.dfy): the location-to-directory-name transform.
- `Documents` (documents.dfy): a parsed XML document as nested elements,
  lists and text leaves, and subscripting that fails like a `KeyError` or
  `TypeError`.
- `Forecasts` (forecast.dfy): extraction of the snapshot and of the
  precipitation series.
- `Rendering` (rendering.dfy): the printed text as string functions. This
  covers the summary row, glyphs, thresholds, chart cells, the time axis and
  the credit lines.
- `WeatherModel` (weather.dfy): the cache as a `Cache` object and the
  load decision as functions, including the XML trees each load leaves
  behind. It also holds the `Weather` class, whose methods load, parse and
  print into an `out` buffer that stands for stdout.
- `Settings` (settings.dfy): the configuration file as a DEFAULT block plus
  an ordered list of sections. A `ConfigFile` object holds the stored file
  and whether its directory exists, and has one method per operation.

## Model

| member | source | states |
|---|---|---|
| CacheDirs.DirNameShape | term_weather/weather.py:216-218 | the directory name has the location's length and contains no '/' |
| CacheDirs.DirNameKeepsOtherChars | term_weather/weather.py:216-218 | each '/' becomes '_' and every other character stays at its position |
| CacheDirs.DirNameRoundTrip | term_weather/weather.py:216-218 | a location without '_' is recovered by the reverse substitution |
| CacheDirs.DirNameCollision | term_weather/weather.py:216-218 | the transform is not injective: "a/b" and "a_b" both map to "a_b" |
| CacheDirs.DirNameExample | tests/test_term_weather.py:8 | "Noreg/Telemark/Sauherad/Gvarv" maps to the test asset directory "Noreg_Telemark_Sauherad_Gvarv" |
| Timestamps.BeforeIrreflexive | term_weather/weather.py:102 | no date-time is strictly before itself, so a next update equal to now is not stale |
| Timestamps.BeforeTransitive | term_weather/weather.py:102 | the strict order used by the staleness check is transitive |
| Timestamps.BeforeTrichotomy | term_weather/weather.py:102 | any two date-times are equal or one is strictly before the other |
| Forecasts.PrecipitationRangeDefaults | term_weather/weather.py:135-144 | the precipitation minimum and maximum fall back to the nominal value exactly when their attribute is absent, and are the attribute's number otherwise |
| Forecasts.ParsedParts | term_weather/weather.py:129-158 | a snapshot exists only when the first entry, the location and credit fields, the precipitation and the other conditions all parse |
| Forecasts.MissingEntryFieldFails | term_weather/weather.py:133-156 | a first entry lacking precipitation, temperature, pressure, windSpeed, windDirection or symbol makes the parse fail |
| Forecasts.ConditionsNeedField | term_weather/weather.py:133-156 | reading the conditions of any entry that lacks one of the five condition fields (temperature, pressure, windSpeed, windDirection, symbol) fails |
| Forecasts.MissingCreditFails | term_weather/weather.py:157-158 | a document without the credit link makes the parse fail |
| Forecasts.NoEntryFails | term_weather/weather.py:129 | an empty forecast time list makes the parse fail |
| Forecasts.OnlyFirstEntryRead | term_weather/weather.py:129 | entries after the first have no influence on the snapshot |
| Forecasts.SeriesValues | term_weather/weather.py:161-163 | the series succeeds exactly when every entry's value converts; it then has one value per entry, in document order |
| Forecasts.SeriesFollowsDocument | term_weather/weather.py:160-168 | a parsed precipitation document yields one value per time entry, in document order |
| Rendering.DecimalRoundTrip | term_weather/weather.py:172 | the decimal digits of a number read back as that number |
| Rendering.Pad2TwoDigits | term_weather/weather.py:172-174 | the '{:02d}' rendering of a number below 100 is two digits that read back as the number |
| Rendering.ForecastRowLayout | term_weather/weather.py:170-174 | the summary row opens with "name, country: ", then HH:MM-HH:MM whose four fields read back as the period's hours and minutes, then a space, a vertical bar and a space |
| Rendering.RowStartsWithPlace | term_weather/weather.py:171 | the summary row starts with the place text of the first print call |
| Rendering.GlyphClassification | term_weather/weather.py:181-190 | each sample's glyph is "^^", "~~", ",," or "__" exactly on the ranges p > 2.5, 1 < p <= 2.5, 0.3 < p <= 1 and p <= 0.3 |
| Rendering.GlyphMonotone | term_weather/weather.py:181-190 | more precipitation never gives a lighter glyph |
| Rendering.GlyphBoundaries | term_weather/weather.py:183-187 | values on a boundary (2.5, 1, 0.3) take the lighter glyph, because every comparison is strict |
| Rendering.GlyphRowLayout | term_weather/weather.py:182-190 | the glyph row has two characters per sample and characters 2k and 2k+1 are sample k's glyph |
| Rendering.EqualSpaced | term_weather/weather.py:211-214 | yields `length` values, or none when `length` is not positive |
| Rendering.ThresholdAt | term_weather/weather.py:193-214 | the k-th row threshold is 5 - 5k(h+1)/h² |
| Rendering.ThresholdsDecrease | term_weather/weather.py:193-214 | the h thresholds strictly decrease from 5 down to 5/h², which is above 0 |
| Rendering.Repeat | term_weather/weather.py:198-200 | the repetition has n characters, all equal to the given one |
| Rendering.CellsLength | term_weather/weather.py:196-200 | a chart row has bar_width characters per sample |
| Rendering.CellAt | term_weather/weather.py:196-200 | the k-th block of bar_width characters in a chart row is sample k's cell |
| Rendering.FilledStaysFilled | term_weather/weather.py:193-201 | a column filled in one row is filled in every row below it |
| Rendering.LowSampleBlank | term_weather/weather.py:193-201 | a sample at or below 5/h², zero for example, is blank in every row |
| Rendering.CenterPlacement | term_weather/weather.py:202-204 | a centred label sits after (w - len)/2 blanks and is followed by as many blanks or one more |
| Rendering.AxisRowLength | term_weather/weather.py:202-205 | with cells at least two wide, the axis row is five blanks, thirteen cells of bar_width characters and a newline |
| WeatherModel.UsesCacheIff | term_weather/weather.py:73-103 | cached data is used exactly when both files exist and parse and the next update is not strictly before now |
| WeatherModel.FetchesIff | term_weather/weather.py:79-103 | the server is asked exactly when the forecast file is missing, or it is well formed and the precipitation file is missing, or the cached data is stale |
| WeatherModel.NoFetchIgnoresDownload | term_weather/weather.py:79-83 | when the cache answers, what the server would send plays no part and the cache is not written |
| WeatherModel.BrokenCacheIsFatal | term_weather/weather.py:91-101 | only a missing file is caught: a malformed cached forecast file, or two present files of which either is malformed or fails extraction, is an error with no fallback to the server, and the cache is not written |
| WeatherModel.FetchWritesCache | term_weather/weather.py:115-122 | a completed download overwrites both cache files before parsing, so the cache holds the downloaded documents even when they fail to parse |
| WeatherModel.IncompleteDownloadIsFatal | term_weather/weather.py:110-113 | a missing download, or one that came back empty, fails the load with no fallback to stale data, and the cache keeps what it had |
| WeatherModel.NextUpdateEqualNowIsFresh | term_weather/weather.py:102-103 | data whose next update equals now is served from the cache |
| WeatherModel.LoadedTreesParse | term_weather/weather.py:85-122 | after a successful load, from the cache or the server, the stored forecast_data and precipitation_now_data trees are present and extract to exactly the data held |
| WeatherModel.ServerLoadReadsBack | term_weather/weather.py:91-122 | what a server load writes, a later load reads back from the cache while its next update has not passed |
| WeatherModel.NowLayout | term_weather/weather.py:56-60 | now() completes unless a chart of height 0 is asked for; a completed output ends with the credit text and URL; the summary row comes first when shown; with nothing else shown only the credit is printed |
| WeatherModel.NowNamesPlace | tests/test_term_weather.py:23-32 | for the test's forecast the output starts with "Gvarv, Norway" |
| WeatherModel.Cache.constructor | term_weather/weather.py:26-45 | the cache root starts with the given directories |
| WeatherModel.Weather.constructor | term_weather/weather.py:26-45 | a Weather object without auto_load has the directory name of its location, the 13 x-axis labels of the chart (minute marks 0, 30, 60 and 90 with ticks between), and no data |
| WeatherModel.Weather.ParseForecastData | term_weather/weather.py:124-158 | succeeds exactly when the forecast document yields a snapshot, and then stores it |
| WeatherModel.Weather.ParsePrecipitationNowData | term_weather/weather.py:160-168 | rebuilds the series from empty by appending one value per time entry; succeeds exactly when the document parses, and then stores the series and both update times; the last-update time is stored as soon as the series and it parse, so a bad next-update time leaves it set; on failure the series is the values of a prefix of the entries, and empty when the document or its time list is missing or not a list |
| WeatherModel.Weather.ForceLoadFromFiles | term_weather/weather.py:62-71 | succeeds exactly when both files parse, and then holds their data; the forecast tree is stored once it parses, the precipitation tree once both do; nothing is printed |
| WeatherModel.Weather.ParseDocs | term_weather/weather.py:94-101 | XML-parses the forecast, then the precipitation document, then extracts both; succeeds exactly when all four steps do; each tree is stored as soon as it parses, so a malformed precipitation file leaves the new forecast tree beside the old precipitation tree |
| WeatherModel.Weather.LoadFromCache | term_weather/weather.py:85-103 | ends in the cache read outcome (miss, broken, stale or fresh) and holds the cached data when fresh; the forecast tree is stored before the precipitation file is opened, so it is kept on a miss of that file |
| WeatherModel.Weather.LoadFromServer | term_weather/weather.py:105-122 | writes both files only for a complete download; succeeds exactly when it completes and both documents parse, and then holds their data; the downloaded trees are stored as they parse, and nothing is stored for an incomplete download |
| WeatherModel.Weather.LoadForecastData | term_weather/weather.py:73-83 | creates the cache directory, then ends exactly as the load decision says, writing the cache only on a fetch; the stored trees are those the cache read leaves, overwritten by the downloads' on a fetch |
| WeatherModel.Weather.PrintForecast | term_weather/weather.py:170-178 | appends the summary row to the output |
| WeatherModel.Weather.PrintCredit | term_weather/weather.py:207-209 | appends the credit text and URL, each on its own line |
| WeatherModel.Weather.PlotPrecipitation | term_weather/weather.py:180-205 | appends the chart for the given height; fails without output for height 0 |
| WeatherModel.Weather.PlotGlyphs | term_weather/weather.py:182-190 | appends one glyph per sample, in order |
| WeatherModel.Weather.PlotBars | term_weather/weather.py:193-201 | appends one chart row per threshold, from the top threshold down |
| WeatherModel.Weather.PlotBarRow | term_weather/weather.py:195-201 | appends the threshold label, a space and a vertical bar, one cell per sample and a newline |
| WeatherModel.Weather.PlotAxis | term_weather/weather.py:202-205 | appends the centred time labels |
| WeatherModel.Weather.Now | term_weather/weather.py:47-60 | appends exactly the "now" view described by NowOutput, and reports whether it completed |
| Settings.AddSection | term_weather/config.py:27-30 | adding a section succeeds exactly when the name is not DEFAULT and no section has it; the error is ValueError for DEFAULT and DuplicateSectionError otherwise; a file with distinct, non-reserved names keeps that property |
| Settings.SetDefaultEffect | term_weather/config.py:71-78 | after choosing a place, a section is marked default exactly when it has that name; every other section says "False"; names, order, the DEFAULT block and all other options are unchanged |
| Settings.SetDefaultIdempotent | term_weather/config.py:71-78 | choosing the same place twice is the same as choosing it once |
| Settings.SetDefaultWellFormed | term_weather/config.py:71-80 | choosing a place keeps section names distinct |
| Settings.SetDefaultThenGet | term_weather/config.py:62-78 | after choosing a place, the default section is that place when the file has it, and there is no default place (ValueError) when it does not |
| Settings.FirstMarked | term_weather/config.py:62-67 | finds the first section whose `default` answers exactly "True", and none are marked before it |
| Settings.AddLocationEffect | term_weather/config.py:27-32 | adding a place appends one section with the given location and default and keeps every earlier section |
| Settings.AddKeepsEarlierDefault | term_weather/config.py:27-65 | adding a place never changes an existing default place, even when the new one is also marked; a file without one gets the new place as its default exactly when it is added with "True" |
| Settings.InstalledShape | term_weather/config.py:5-24 | installing writes the DEFAULT block and exactly one section, holding the place, its language and the default mark, whatever was stored before; that section is the default place |
| Settings.ConfigFile.constructor | term_weather/config.py:39-40 | the object holds the stored configuration and whether its directory exists |
| Settings.ConfigFile.InstallDefaultConfig | term_weather/config.py:13-24 | replaces the stored file by the installed one and the directory then exists, or fails for the name DEFAULT before creating anything and leaves it alone |
| Settings.ConfigFile.AddLocation | term_weather/config.py:27-35 | stores the file with the place appended, or fails and leaves it alone: for the name DEFAULT or a duplicate, and otherwise when the configuration directory is absent (FileNotFoundError on writing) |
| Settings.ConfigFile.ListPlaces | term_weather/config.py:38-50 | one line per section in order, "name: location " followed by "[DEFAULT]" exactly when the section's default is "True"; a section without a location stops the listing with an error after the earlier lines |
| Settings.ConfigFile.GetConfig | term_weather/config.py:53-56 | the named section's options over the DEFAULT block, the DEFAULT block itself for "DEFAULT", and an error for an unknown name |
| Settings.ConfigFile.GetDefaultConfig | term_weather/config.py:59-68 | returns the first section whose default answers "True", or the no-default error |
| Settings.ConfigFile.SetDefaultLocation | term_weather/config.py:71-80 | rewrites every section's default to "True" for the chosen place and "False" for the rest, and nothing else; fails and leaves the file alone when the configuration directory is absent |

## Left out

- Network access and threads: the two downloads are inputs, each either a retrieved document or nothing. An error other than an HTTP error in a download thread, which would stall the queue join, is not modelled.
- File system: the cache root is a map from directory name to two optional files, and the configuration file is a value plus a flag for its directory. Paths, `os.path.join`, `os.makedirs` beyond "the directory now exists", and file permissions are not modelled.
- URLs and `BASE_URLS` are not modelled: the downloads are inputs.
- WeatherModel.Weather.constructor: has no `language` parameter. In the source, `BASE_URLS[language]` raises `KeyError` for any language other than en, nb and nn, and the CLI passes the configured language unchecked, so that error path is not modelled.
- XML parsing, `float`, `int` and `strptime`: a leaf carries what each conversion yields. Every exception these raise becomes the single `ParseError`, so the failure lemmas state `.Failure?` and not the exception type.
- Float formatting (`'{}'` and `'{0:.1f}'` of floats) is a function parameter. Chart thresholds are exact reals, not IEEE doubles.
- `auto_load` in the constructor: the constructor models `auto_load=False`. Loading is the separate `LoadForecastData` call.
- The current time is an input to the load. `datetime.now()` carries microseconds and a `Timestamp` does not, so `now` stands for the current time rounded up to the whole second; since the next update is a whole second, `next_update < now` keeps its meaning, and WeatherModel.NextUpdateEqualNowIsFresh is about that rounded value.
- Printing before any data was loaded raises `AttributeError` in the source. The print methods instead require a loaded forecast.
- WeatherModel.Weather.ParseForecastData: sets the snapshot only on success. The source assigns the fields one by one, so a failing parse leaves some of them set.
- WeatherModel.Weather.PlotPrecipitation: takes a non-negative bar width. A negative width makes the source's centring format raise.
- Forecasts.ParseHeader: requires the place name and country to be text leaves. The source stores whatever the XML parser gives (a dict for an element with attributes, None for an empty element) and only fails when the summary row concatenates it, so with the forecast row switched off it completes where the model fails the parse, and a cached copy reads as broken rather than fresh.
- A forecast `time` node that is not a list fails the parse. This covers the single-entry dict that `xmltodict` produces for one time element.
- configparser: its text format, interpolation (`%` in values), option-name lowercasing and the `allow_no_value` flag are not modelled.
- term_weather/command_line.py (the CLI), setup.py and `__repr__` are not part of this model.

=== FILE: cache_dirs.dfy ===
/**
 * The cache directory name of a location: the location string with every
 * path separator '/' replaced by '_'.
 */
module CacheDirs {

  function SlashToUnderscore(c: char): char
  {
    if c == '/' then '_' else c
  }

  function UnderscoreToSlash(c: char): char
  {
    if c == '_' then '/' else c
  }

  /** Python's place.replace('/', '_'). */
  function PlaceToDirName(place: string): string
  {
    seq(|place|, i requires 0 <= i < |place| => SlashToUnderscore(place[i]))
  }

  /** The reverse substitution, used only to state what the transform loses. */
  function DirNameToPlace(dir: string): string
  {
    seq(|dir|, i requires 0 <= i < |dir| => UnderscoreToSlash(dir[i]))
  }

  /** The name has the location's length, and no path separator, so it is one path component. */
  lemma DirNameShape(place: string)
    ensures |PlaceToDirName(place)| == |place|
    ensures '/' !in PlaceToDirName(place)
  {
  }

  /** Only the separators change: every other character is kept at its position. */
  lemma DirNameKeepsOtherChars(place: string, i: nat)
    requires i < |place|
    ensures place[i] == '/' ==> PlaceToDirName(place)[i] == '_'
    ensures place[i] != '/' ==> PlaceToDirName(place)[i] == place[i]
  {
  }

  /** A location without underscores is recovered from its directory name. */
  lemma DirNameRoundTrip(place: string)
    requires '_' !in place
    ensures DirNameToPlace(PlaceToDirName(place)) == place
  {
  }

  /** The transform is not injective: "a/b" and "a_b" share a cache directory. */
  lemma DirNameCollision()
    ensures "a/b" != "a_b"
    ensures PlaceToDirName("a/b") == PlaceToDirName("a_b") == "a_b"
  {
    assert "a/b"[1] != "a_b"[1];
  }

  lemma DirNameExample()
    ensures PlaceToDirName("Noreg/Telemark/Sauherad/Gvarv") == "Noreg_Telemark_Sauherad_Gvarv"
  {
  }
}

=== FILE: documents.dfy ===
/**
 * A weather document after XML parsing: nested elements keyed by tag or
 * '@attribute' name, lists for repeated tags, and text leaves. A leaf also
 * records what the number, integer and date-time conversions make of its
 * text (None when the conversion raises), so that those library calls stay
 * outside the model.
 */
module Documents {
  import opened Results
  import opened Timestamps

  datatype Node =
    | Leaf(text: string, number: Option<real>, integer: Option<int>, stamp: Option<Timestamp>)
    | Element(fields: map<string, Node>)
    | List(items: seq<Node>)

  /** A raw file: its text and the tree the XML parser builds from it (None when it is malformed). */
  datatype Doc = Doc(content: string, tree: Option<Node>)

  /** Subscripting by a key: only an element that has the key answers. */
  function Child(n: Node, key: string): Result<Node>
  {
    if n.Element? && key in n.fields then Success(n.fields[key]) else Failure(ParseError)
  }

  /** Subscripting by each key in turn. */
  function Path(n: Node, keys: seq<string>): Result<Node>
    decreases |keys|
  {
    if keys == [] then Success(n)
    else
      var c :- Child(n, keys[0]);
      Path(c, keys[1..])
  }

  /** The node with the node at the end of `keys` replaced by `v`, when that path exists. */
  function SetPath(n: Node, keys: seq<string>, v: Node): Node
    decreases |keys|
  {
    if keys == [] then v
    else if n.Element? && keys[0] in n.fields then
      Element(n.fields[keys[0] := SetPath(n.fields[keys[0]], keys[1..], v)])
    else n
  }

  function Text(n: Result<Node>): Result<string>
  {
    var leaf :- n;
    if leaf.Leaf? then Success(leaf.text) else Failure(ParseError)
  }

  /** float(...) of a leaf */
  function Number(n: Result<Node>): Result<real>
  {
    var leaf :- n;
    if leaf.Leaf? && leaf.number.Some? then Success(leaf.number.value) else Failure(ParseError)
  }

  /** int(...) of a leaf */
  function Integer(n: Result<Node>): Result<int>
  {
    var leaf :- n;
    if leaf.Leaf? && leaf.integer.Some? then Success(leaf.integer.value) else Failure(ParseError)
  }

  /** datetime.strptime(..., "%Y-%m-%dT%H:%M:%S") of a leaf */
  function Stamp(n: Result<Node>): Result<Timestamp>
  {
    var leaf :- n;
    if leaf.Leaf? && leaf.stamp.Some? then Success(leaf.stamp.value) else Failure(ParseError)
  }

  /** Replacing the node at an existing path makes that path lead to the replacement. */
  lemma {:induction false} PathAfterSetPath(n: Node, keys: seq<string>, v: Node)
    requires Path(n, keys).Success?
    ensures Path(SetPath(n, keys, v), keys) == Success(v)
    decreases |keys|
  {
    if keys != [] {
      PathAfterSetPath(n.fields[keys[0]], keys[1..], v);
    }
  }
}

=== FILE: forecast.dfy ===
/**
 * Extraction of the current-conditions snapshot from the forecast document
 * and of the short-term precipitation series from the precipitation-now
 * document.
 */
module Forecasts {
  import opened Results
  import opened Timestamps
  import opened Documents

  /** The fields parsing sets on the weather object, taken from the first forecast entry. */
  datatype Forecast = Forecast(
    locationName: string, locationCountry: string,
    timeFrom: Timestamp, timeTo: Timestamp,
    precipitation: real, precipitationMin: real, precipitationMax: real,
    temperature: real, temperatureUnit: string,
    pressure: real, pressureUnit: string,
    windSpeed: real, windSpeedName: string,
    windDirection: real, windDirectionCode: string, windDirectionName: string,
    symbolNumber: int, symbolName: string,
    creditText: string, creditUrl: string)

  /** Where the forecast document keeps its list of time entries. */
  const TimePath: seq<string> := ["weatherdata", "forecast", "tabular", "time"]

  /** The parts of an entry that are read without a fallback. */
  const RequiredEntryFields: set<string> := {"temperature", "pressure", "windSpeed", "windDirection", "symbol"}

  /** The first entry of the forecast time list, which must be a non-empty list of elements. */
  function FirstEntry(doc: Node): Result<Node>
  {
    var times :- Path(doc, TimePath);
    if times.List? && |times.items| > 0 && times.items[0].Element? then Success(times.items[0])
    else Failure(ParseError)
  }

  /** A range bound: the attribute's value when the attribute is there, the nominal value otherwise. */
  function RangeBound(precipitation: Node, attribute: string, nominal: real): Result<real>
  {
    if precipitation.Element? && attribute in precipitation.fields
    then Number(Success(precipitation.fields[attribute]))
    else Success(nominal)
  }

  /** The document-level fields: place name, country and the credit link. */
  datatype Header = Header(name: string, country: string, creditText: string, creditUrl: string)

  /** The precipitation of an entry: nominal value and range. */
  datatype Rain = Rain(value: real, low: real, high: real)

  /** The entry's conditions other than precipitation and its time window. */
  datatype Conditions = Conditions(
    temperature: real, temperatureUnit: string, pressure: real, pressureUnit: string,
    windSpeed: real, windSpeedName: string,
    windDirection: real, windDirectionCode: string, windDirectionName: string,
    symbolNumber: int, symbolName: string)

  function ParseHeader(doc: Node): Result<Header>
  {
    var name :- Text(Path(doc, ["weatherdata", "location", "name"]));
    var country :- Text(Path(doc, ["weatherdata", "location", "country"]));
    var creditText :- Text(Path(doc, ["weatherdata", "credit", "link", "@text"]));
    var creditUrl :- Text(Path(doc, ["weatherdata", "credit", "link", "@url"]));
    Success(Header(name, country, creditText, creditUrl))
  }

  function ParseRain(entry: Node): Result<Rain>
  {
    var rain :- Child(entry, "precipitation");
    var value :- Number(Child(rain, "@value"));
    var low :- RangeBound(rain, "@minvalue", value);
    var high :- RangeBound(rain, "@maxvalue", value);
    Success(Rain(value, low, high))
  }

  /** A number attribute and a text attribute of one child element of the entry. */
  function Reading(entry: Node, tag: string, numberAttribute: string, textAttribute: string): Result<(real, string)>
  {
    var x :- Number(Path(entry, [tag, numberAttribute]));
    var t :- Text(Path(entry, [tag, textAttribute]));
    Success((x, t))
  }

  function ParseConditions(entry: Node): Result<Conditions>
  {
    var temperature :- Reading(entry, "temperature", "@value", "@unit");
    var pressure :- Reading(entry, "pressure", "@value", "@unit");
    var wind :- Reading(entry, "windSpeed", "@mps", "@name");
    var direction :- Reading(entry, "windDirection", "@deg", "@code");
    var directionName :- Text(Path(entry, ["windDirection", "@name"]));
    var symbolNumber :- Integer(Path(entry, ["symbol", "@number"]));
    var symbolName :- Text(Path(entry, ["symbol", "@name"]));
    Success(Conditions(temperature.0, temperature.1, pressure.0, pressure.1, wind.0, wind.1,
                       direction.0, direction.1, directionName, symbolNumber, symbolName))
  }

  function ParseForecast(doc: Node): Result<Forecast>
  {
    Snapshot(FirstEntry(doc), ParseHeader(doc))
  }

  /** The snapshot from the first entry and the header, each failing the whole parse in turn. */
  function Snapshot(first: Result<Node>, head: Result<Header>): Result<Forecast>
  {
    var entry :- first;
    var header :- head;
    var from :- Stamp(Child(entry, "@from"));
    var to :- Stamp(Child(entry, "@to"));
    var rain :- ParseRain(entry);
    var c :- ParseConditions(entry);
    Success(Forecast(header.name, header.country, from, to, rain.value, rain.low, rain.high,
                     c.temperature, c.temperatureUnit, c.pressure, c.pressureUnit,
                     c.windSpeed, c.windSpeedName, c.windDirection, c.windDirectionCode, c.windDirectionName,
                     c.symbolNumber, c.symbolName, header.creditText, header.creditUrl))
  }

  /** The minimum and maximum fall back to the nominal precipitation exactly when their attribute is absent. */
  lemma PrecipitationRangeDefaults(doc: Node)
    requires ParseForecast(doc).Success?
    ensures var f := ParseForecast(doc).value;
            var rain := Child(FirstEntry(doc).value, "precipitation").value;
            && rain.Element?
            && ("@minvalue" !in rain.fields ==> f.precipitationMin == f.precipitation)
            && ("@maxvalue" !in rain.fields ==> f.precipitationMax == f.precipitation)
            && ("@minvalue" in rain.fields ==> Number(Success(rain.fields["@minvalue"])) == Success(f.precipitationMin))
            && ("@maxvalue" in rain.fields ==> Number(Success(rain.fields["@maxvalue"])) == Success(f.precipitationMax))
  {
    var entry := FirstEntry(doc).value;
    assert ParseRain(entry).Success?;
  }

  /** A snapshot exists only when the header, the precipitation and the other conditions all parse. */
  lemma ParsedParts(doc: Node)
    ensures ParseForecast(doc).Success? ==>
              && FirstEntry(doc).Success?
              && ParseHeader(doc).Success?
              && ParseRain(FirstEntry(doc).value).Success?
              && ParseConditions(FirstEntry(doc).value).Success?
  {
  }

  /** A first entry lacking a required part, or lacking precipitation, fails the parse. */
  lemma MissingEntryFieldFails(doc: Node, key: string)
    requires FirstEntry(doc).Success?
    requires key in RequiredEntryFields + {"precipitation"}
    requires key !in FirstEntry(doc).value.fields
    ensures ParseForecast(doc).Failure?
  {
    var entry := FirstEntry(doc).value;
    ParsedParts(doc);
    if key == "precipitation" {
      assert ParseRain(entry).Failure?;
    } else {
      ConditionsNeedField(entry, key);
    }
  }

  lemma ConditionsNeedField(entry: Node, key: string)
    requires key in RequiredEntryFields && entry.Element? && key !in entry.fields
    ensures ParseConditions(entry).Failure?
  {
    assert Child(entry, key).Failure?;
    if key == "symbol" {
      assert Integer(Path(entry, ["symbol", "@number"])).Failure?;
    } else if key == "windDirection" {
      assert Number(Path(entry, ["windDirection", "@deg"])).Failure?;
    }
  }

  /** A document without its credit link fails the parse. */
  lemma MissingCreditFails(doc: Node)
    requires Path(doc, ["weatherdata", "credit", "link"]).Failure?
    ensures ParseForecast(doc).Failure?
  {
    PathPrefixFails(doc, ["weatherdata", "credit", "link"], ["@text"]);
    assert ["weatherdata", "credit", "link"] + ["@text"] == ["weatherdata", "credit", "link", "@text"];
    assert ParseHeader(doc).Failure?;
  }

  /** An empty time list fails the parse rather than yielding a snapshot. */
  lemma NoEntryFails(doc: Node)
    requires Path(doc, TimePath) == Success(List([]))
    ensures ParseForecast(doc).Failure?
  {
  }

  lemma {:induction false} PathPrefixFails(n: Node, keys: seq<string>, more: seq<string>)
    requires Path(n, keys).Failure?
    ensures Path(n, keys + more).Failure?
    decreases |keys|
  {
    assert keys != [];
    assert (keys + more)[1..] == keys[1..] + more;
    if Child(n, keys[0]).Success? {
      PathPrefixFails(n.fields[keys[0]], keys[1..], more);
    }
  }

  /** Only the first entry of the time list is read: the entries after it can be anything. */
  lemma OnlyFirstEntryRead(doc: Node, rest: seq<Node>)
    requires Path(doc, TimePath).Success? && Path(doc, TimePath).value.List?
    requires |Path(doc, TimePath).value.items| > 0
    ensures var first := Path(doc, TimePath).value.items[0];
            ParseForecast(SetPath(doc, TimePath, List([first] + rest))) == ParseForecast(doc)
  {
    var v := List([Path(doc, TimePath).value.items[0]] + rest);
    FirstEntryKept(doc, rest);
    HeaderBesideForecast(doc, v);
    ParseForecastReads(SetPath(doc, TimePath, v), doc);
  }

  /** A time list with the same first entry has the same first entry to parse. */
  lemma FirstEntryKept(doc: Node, rest: seq<Node>)
    requires Path(doc, TimePath).Success? && Path(doc, TimePath).value.List?
    requires |Path(doc, TimePath).value.items| > 0
    ensures var first := Path(doc, TimePath).value.items[0];
            FirstEntry(SetPath(doc, TimePath, List([first] + rest))) == FirstEntry(doc)
  {
    var v := List([Path(doc, TimePath).value.items[0]] + rest);
    PathAfterSetPath(doc, TimePath, v);
  }

  /** Replacing the time list leaves the place and credit fields alone. */
  lemma HeaderBesideForecast(doc: Node, v: Node)
    requires Path(doc, TimePath).Success?
    ensures ParseHeader(SetPath(doc, TimePath, v)) == ParseHeader(doc)
  {
    PathBesideForecast(doc, v, ["weatherdata", "location", "name"]);
    PathBesideForecast(doc, v, ["weatherdata", "location", "country"]);
    PathBesideForecast(doc, v, ["weatherdata", "credit", "link", "@text"]);
    PathBesideForecast(doc, v, ["weatherdata", "credit", "link", "@url"]);
  }

  /** The snapshot depends on the document only through its first entry and its header. */
  lemma ParseForecastReads(a: Node, b: Node)
    requires FirstEntry(a) == FirstEntry(b) && ParseHeader(a) == ParseHeader(b)
    ensures ParseForecast(a) == ParseForecast(b)
  {
  }

  /** Replacing the time list leaves every path into weatherdata that avoids `forecast` unchanged. */
  lemma PathBesideForecast(doc: Node, v: Node, keys: seq<string>)
    requires Path(doc, TimePath).Success?
    requires |keys| >= 2 && keys[0] == "weatherdata" && keys[1] != "forecast"
    ensures Path(SetPath(doc, TimePath, v), keys) == Path(doc, keys)
  {
    var doc' := SetPath(doc, TimePath, v);
    var w := doc.fields["weatherdata"];
    var w' := doc'.fields["weatherdata"];
    assert Path(doc, keys) == Path(w, keys[1..]);
    assert Path(doc', keys) == Path(w', keys[1..]);
    assert Child(w', keys[1]) == Child(w, keys[1]);
    assert keys[1..][1..] == keys[2..];
  }

  /** What the precipitation-now document yields. */
  datatype NowForecast = NowForecast(values: seq<real>, lastUpdate: Timestamp, nextUpdate: Timestamp)

  /** The precipitation value of one time entry of the precipitation-now document. */
  function SampleValue(entry: Node): Result<real>
  {
    Number(Path(entry, ["precipitation", "@value"]))
  }

  /** The value of every entry, in document order; the first entry that does not convert fails the whole series. */
  function SeriesValues(entries: seq<Node>): (r: Result<seq<real>>)
    ensures r.Success? <==> forall i :: 0 <= i < |entries| ==> SampleValue(entries[i]).Success?
    ensures r.Success? ==> |r.value| == |entries|
    ensures r.Success? ==> forall i :: 0 <= i < |entries| ==> SampleValue(entries[i]) == Success(r.value[i])
  {
    if entries == [] then Success([])
    else
      var front :- SeriesValues(entries[..|entries| - 1]);
      var last :- SampleValue(entries[|entries| - 1]);
      Success(front + [last])
  }

  const NowTimePath: seq<string> := ["weatherdata", "forecast", "time"]

  function ParsePrecipitationNow(doc: Node): Result<NowForecast>
  {
    var times :- Path(doc, NowTimePath);
    if !times.List? then Failure(ParseError)
    else
      var values :- SeriesValues(times.items);
      var last :- Stamp(Path(doc, ["weatherdata", "meta", "lastupdate"]));
      var next :- Stamp(Path(doc, ["weatherdata", "meta", "nextupdate"]));
      Success(NowForecast(values, last, next))
  }

  /** One value per time entry, in document order, and nothing else. */
  lemma SeriesFollowsDocument(doc: Node)
    requires ParsePrecipitationNow(doc).Success?
    ensures Path(doc, NowTimePath).Success? && Path(doc, NowTimePath).value.List?
    ensures var entries := Path(doc, NowTimePath).value.items;
            var values := ParsePrecipitationNow(doc).value.values;
            && |values| == |entries|
            && forall i :: 0 <= i < |entries| ==> SampleValue(entries[i]) == Success(values[i])
  {
  }
}

=== FILE: rendering.dfy ===
/**
 * What the weather viewer prints, as strings: the one-line forecast
 * summary, the precipitation chart in its single-row and multi-row forms,
 * and the credit block. Python's rendering of floats ('{}' and '{0:.1f}')
 * is a parameter: the model does not reproduce float formatting.
 */
module Rendering {
  import opened Results
  import opened Timestamps
  import opened Forecasts

  const DegreesSymbol: string := "°"
  const PrecipitationMax: real := 5.0
  /** The x-axis labels under the multi-row chart: minutes 0, 30, 60 and 90 with ticks between. */
  const TimeStampLabels: seq<string> := [" 0", " ", "'", " ", "30", " ", "'", " ", "60", " ", "'", " ", "90"]

  // ---------------------------------------------------------------------
  // Zero-padded two-digit numbers, as '{:02d}'
  // ---------------------------------------------------------------------

  function DigitChar(d: nat): (c: char)
    requires d < 10
    ensures '0' <= c <= '9'
  {
    ('0' as int + d) as char
  }

  function DigitValue(c: char): int
  {
    c as int - '0' as int
  }

  /** str(n) for a natural number. */
  function Decimal(n: nat): (s: string)
    ensures |s| >= 1
    ensures forall i :: 0 <= i < |s| ==> '0' <= s[i] <= '9'
  {
    if n < 10 then [DigitChar(n)] else Decimal(n / 10) + [DigitChar(n % 10)]
  }

  /** The number a string of decimal digits denotes. */
  function DecimalValue(s: string): int
  {
    if s == [] then 0 else DecimalValue(s[..|s| - 1]) * 10 + DigitValue(s[|s| - 1])
  }

  /** Printing a number and reading it back gives the number. */
  lemma {:induction false} DecimalRoundTrip(n: nat)
    ensures DecimalValue(Decimal(n)) == n
  {
    if n >= 10 {
      DecimalRoundTrip(n / 10);
      var s := Decimal(n);
      assert s[..|s| - 1] == Decimal(n / 10);
    }
  }

  /** '{:02d}': at least two digits, padded on the left with '0'. */
  function Pad2(n: nat): string
  {
    if n < 10 then "0" + Decimal(n) else Decimal(n)
  }

  /** Every number below 100 prints as exactly two digits that read back as the number. */
  lemma Pad2TwoDigits(n: nat)
    requires n < 100
    ensures |Pad2(n)| == 2
    ensures '0' <= Pad2(n)[0] <= '9' && '0' <= Pad2(n)[1] <= '9'
    ensures DigitValue(Pad2(n)[0]) * 10 + DigitValue(Pad2(n)[1]) == n
  {
    if n >= 10 {
      assert Decimal(n) == Decimal(n / 10) + [DigitChar(n % 10)];
      assert Decimal(n / 10) == [DigitChar(n / 10)];
    }
  }

  // ---------------------------------------------------------------------
  // The forecast row
  // ---------------------------------------------------------------------

  function Clock(t: Timestamp): string
  {
    Pad2(t.hour) + ":" + Pad2(t.minute)
  }

  /** The place as the row opens with it: name, comma, country, colon. */
  function Place(f: Forecast): string
  {
    f.locationName + ", " + f.locationCountry + ": "
  }

  /** The summary line, printed as two print calls that together end in one newline. */
  function ForecastRow(f: Forecast, fmt: real -> string): string
  {
    Place(f) + Summary(f, fmt)
  }

  /** The second print call of the row: time window, temperature, precipitation range, wind and pressure. */
  function Summary(f: Forecast, fmt: real -> string): string
  {
    Clock(f.timeFrom) + "-" + Clock(f.timeTo)
    + " | " + fmt(f.temperature) + DegreesSymbol
    + " | " + fmt(f.precipitationMin) + "-" + fmt(f.precipitationMax) + "mm"
    + " | " + fmt(f.windSpeed) + "m/s " + f.windSpeedName
    + " | " + fmt(f.pressure) + f.pressureUnit + "\n"
  }

  /**
   * The row opens with the place, then the time window as HH:MM-HH:MM with
   * every field two digits wide, then " | ".
   */
  lemma ForecastRowLayout(f: Forecast, fmt: real -> string)
    requires f.timeFrom.hour < 24 && f.timeFrom.minute < 60
    requires f.timeTo.hour < 24 && f.timeTo.minute < 60
    ensures var row := ForecastRow(f, fmt);
            var p := |Place(f)|;
            && |row| > p + 14
            && row[..p] == Place(f)
            && row[p + 2] == ':' && row[p + 5] == '-' && row[p + 8] == ':'
            && DigitValue(row[p]) * 10 + DigitValue(row[p + 1]) == f.timeFrom.hour
            && DigitValue(row[p + 3]) * 10 + DigitValue(row[p + 4]) == f.timeFrom.minute
            && DigitValue(row[p + 6]) * 10 + DigitValue(row[p + 7]) == f.timeTo.hour
            && DigitValue(row[p + 9]) * 10 + DigitValue(row[p + 10]) == f.timeTo.minute
            && row[p + 11..p + 14] == " | "
  {
    Pad2TwoDigits(f.timeFrom.hour);
    Pad2TwoDigits(f.timeFrom.minute);
    Pad2TwoDigits(f.timeTo.hour);
    Pad2TwoDigits(f.timeTo.minute);
    var row := ForecastRow(f, fmt);
    var window := Clock(f.timeFrom) + "-" + Clock(f.timeTo);
    var summary := Summary(f, fmt);
    var tail := summary[11..];
    var rest := summary[14..];
    assert summary == window + " | " + rest;
    assert tail == " | " + rest;
    assert summary == window + tail;
    assert row == Place(f) + window + tail;
    assert tail[..3] == " | ";
  }

  /** The row opens with the place. */
  lemma RowStartsWithPlace(f: Forecast, fmt: real -> string)
    ensures |ForecastRow(f, fmt)| >= |Place(f)| && ForecastRow(f, fmt)[..|Place(f)|] == Place(f)
  {
    var row := ForecastRow(f, fmt);
    assert row[..|Place(f)|] == Place(f);
  }

  /** The credit block: the attribution text, then its URL, each on its own line. */
  function CreditLines(f: Forecast): string
  {
    f.creditText + "\n" + f.creditUrl + "\n"
  }

  // ---------------------------------------------------------------------
  // Single-row chart
  // ---------------------------------------------------------------------

  /** The two-character glyph of one sample; every comparison is strict. */
  function Glyph(p: real): (g: string)
    ensures |g| == 2
  {
    if p > 2.5 then "^^"
    else if p > 1.0 then "~~"
    else if p > 0.3 then ",,"
    else "__"
  }

  /** The rank of a glyph, from dry (0) to heavy (3). */
  function GlyphLevel(g: string): nat
  {
    if g == "^^" then 3 else if g == "~~" then 2 else if g == ",," then 1 else 0
  }

  /** The glyph of each sample is one of four and is exactly determined by the thresholds. */
  lemma GlyphClassification(p: real)
    ensures Glyph(p) == "^^" <==> p > 2.5
    ensures Glyph(p) == "~~" <==> 1.0 < p <= 2.5
    ensures Glyph(p) == ",," <==> 0.3 < p <= 1.0
    ensures Glyph(p) == "__" <==> p <= 0.3
  {
  }

  /** More precipitation never gives a lighter glyph. */
  lemma GlyphMonotone(p: real, q: real)
    requires p <= q
    ensures GlyphLevel(Glyph(p)) <= GlyphLevel(Glyph(q))
  {
  }

  /** The boundary values sit on the lighter side. */
  lemma GlyphBoundaries()
    ensures Glyph(2.6) == "^^" && Glyph(2.5) == "~~"
    ensures Glyph(1.0001) == "~~" && Glyph(1.0) == ",,"
    ensures Glyph(0.3) == "__" && Glyph(0.0) == "__"
  {
  }

  /** The glyphs of the samples, left to right. */
  function GlyphRow(ps: seq<real>): string
  {
    if ps == [] then "" else GlyphRow(ps[..|ps| - 1]) + Glyph(ps[|ps| - 1])
  }

  /** One glyph per sample: the row has 2·n characters and characters 2k, 2k+1 are sample k's glyph. */
  lemma {:induction false} GlyphRowLayout(ps: seq<real>)
    ensures |GlyphRow(ps)| == 2 * |ps|
    ensures forall k :: 0 <= k < |ps| ==> GlyphRow(ps)[2 * k..2 * k + 2] == Glyph(ps[k])
  {
    if ps != [] {
      var front := ps[..|ps| - 1];
      GlyphRowLayout(front);
      var a := GlyphRow(front);
      var p := ps[|ps| - 1];
      assert GlyphRow(ps) == a + Glyph(p);
      assert |a| == 2 * |front|;
      assert ps == front + [p];
      forall k | 0 <= k < |ps|
        ensures (a + Glyph(p))[2 * k..2 * k + 2] == Glyph(ps[k])
      {
        GlyphAppendedAt(a, front, p, k);
      }
    }
  }

  /** Appending one glyph to a laid-out row keeps every earlier glyph in place and puts the new one last. */
  lemma GlyphAppendedAt(a: string, front: seq<real>, p: real, k: nat)
    requires |a| == 2 * |front| && k <= |front|
    requires forall j :: 0 <= j < |front| ==> a[2 * j..2 * j + 2] == Glyph(front[j])
    ensures (a + Glyph(p))[2 * k..2 * k + 2] == Glyph((front + [p])[k])
  {
    if k < |front| {
      SliceOfLeft(a, Glyph(p), 2 * k, 2 * k + 2);
    } else {
      assert (a + Glyph(p))[2 * k..2 * k + 2] == Glyph(p);
    }
  }

  /** A slice that stays within the left operand of a concatenation is a slice of that operand. */
  lemma SliceOfLeft(a: string, b: string, i: nat, j: nat)
    requires i <= j <= |a|
    ensures (a + b)[i..j] == a[i..j]
  {
  }

  // ---------------------------------------------------------------------
  // Multi-row chart
  // ---------------------------------------------------------------------

  /** `length` values from `lower`, stepping by (upper - lower) / length; none when length <= 0. */
  function EqualSpaced(lower: real, upper: real, length: int): (r: seq<real>)
    ensures |r| == if length > 0 then length else 0
  {
    if length <= 0 then []
    else seq(length, k requires 0 <= k < length => lower + (k as real) * (upper - lower) / (length as real))
  }

  /** The row thresholds for a chart `height` rows high: from the maximum down, in equal steps. */
  function Thresholds(height: int): seq<real>
    requires height != 0
  {
    EqualSpaced(PrecipitationMax, -PrecipitationMax / (height as real), height)
  }

  /** Closed form of the k-th threshold. */
  lemma ThresholdAt(height: int, k: nat)
    requires height > 0 && k < height
    ensures var h := height as real;
            Thresholds(height)[k] == 5.0 - 5.0 * (k as real) * (h + 1.0) / (h * h)
  {
    var h := height as real;
    var x := k as real;
    var d := -PrecipitationMax / h - PrecipitationMax;
    var y := x * d / h;
    var q := 5.0 * x * (h + 1.0) / (h * h);
    assert Thresholds(height)[k] == PrecipitationMax + y;
    assert d * h == -5.0 - 5.0 * h;
    assert y * h == x * d;
    assert y * (h * h) == x * (d * h);
    assert q * (h * h) == 5.0 * x * (h + 1.0);
    assert (y + q) * (h * h) == 0.0;
    assert h * h > 0.0;
  }

  /**
   * For a chart of more than one row the thresholds fall strictly from 5 in
   * the top row to 5/h² > 0 in the bottom row.
   */
  lemma ThresholdsDecrease(height: int)
    requires height > 1
    ensures var t := Thresholds(height);
            var h := height as real;
            && |t| == height
            && t[0] == 5.0
            && t[height - 1] == 5.0 / (h * h)
            && t[height - 1] > 0.0
            && forall i, j :: 0 <= i < j < height ==> t[i] > t[j]
  {
    var t := Thresholds(height);
    var h := height as real;
    ThresholdAt(height, 0);
    ThresholdAt(height, height - 1);
    assert 5.0 * (h - 1.0) * (h + 1.0) == 5.0 * (h * h) - 5.0;
    assert t[height - 1] == 5.0 - (5.0 * (h * h) - 5.0) / (h * h);
    forall i, j | 0 <= i < j < height
      ensures t[i] > t[j]
    {
      ThresholdStep(height, i, j);
    }
  }

  /** Consecutive thresholds differ by the same negative step, so an earlier row's is higher. */
  lemma ThresholdStep(height: int, i: nat, j: nat)
    requires height > 1 && i < j < height
    ensures Thresholds(height)[i] > Thresholds(height)[j]
  {
    var h := height as real;
    var d := -PrecipitationMax / h - PrecipitationMax;
    assert d < 0.0;
    var step := d / h;
    assert step < 0.0;
    assert Thresholds(height)[i] == PrecipitationMax + (i as real) * d / h;
    assert Thresholds(height)[j] == PrecipitationMax + (j as real) * d / h;
    assert (i as real) * d / h == (i as real) * step;
    assert (j as real) * d / h == (j as real) * step;
    assert ((j - i) as real) * step < 0.0;
  }

  /** Python's c * n for a one-character string. */
  function Repeat(c: char, n: nat): (r: string)
    ensures |r| == n && forall i :: 0 <= i < n ==> r[i] == c
  {
    if n == 0 then "" else Repeat(c, n - 1) + [c]
  }

  /** One cell: `width` bar characters when the sample exceeds the threshold, blanks otherwise. */
  function Cell(p: real, threshold: real, width: nat): (c: string)
    ensures |c| == width
  {
    if p > threshold then Repeat('|', width) else Repeat(' ', width)
  }

  /** The cells of one chart row, one per sample, left to right. */
  function Cells(ps: seq<real>, threshold: real, width: nat): string
  {
    if ps == [] then "" else Cells(ps[..|ps| - 1], threshold, width) + Cell(ps[|ps| - 1], threshold, width)
  }

  /** A row has `width` characters per sample. */
  lemma {:induction false} CellsLength(ps: seq<real>, threshold: real, width: nat)
    ensures |Cells(ps, threshold, width)| == width * |ps|
  {
    if ps != [] {
      CellsLength(ps[..|ps| - 1], threshold, width);
      assert width * |ps| == width * (|ps| - 1) + width;
    }
  }

  /** Extending the printed prefix of the samples by one sample appends that sample's cell. */
  lemma CellsPrefixStep(ps: seq<real>, threshold: real, width: nat, k: nat)
    requires k < |ps|
    ensures Cells(ps[..k + 1], threshold, width) == Cells(ps[..k], threshold, width) + Cell(ps[k], threshold, width)
  {
    assert ps[..k + 1][..k] == ps[..k];
  }

  /** The cells of a concatenation are the cells of each part, in order. */
  lemma {:induction false} CellsAppend(xs: seq<real>, ys: seq<real>, threshold: real, width: nat)
    ensures Cells(xs + ys, threshold, width) == Cells(xs, threshold, width) + Cells(ys, threshold, width)
    decreases |ys|
  {
    if ys != [] {
      var m := |ys| - 1;
      assert (xs + ys)[..|xs + ys| - 1] == xs + ys[..m];
      CellsAppend(xs, ys[..m], threshold, width);
    } else {
      assert xs + ys == xs;
    }
  }

  /** The k-th block of `width` characters of a row is sample k's cell. */
  lemma CellAt(ps: seq<real>, threshold: real, width: nat, k: nat)
    requires k < |ps|
    ensures width * k + width <= |Cells(ps, threshold, width)|
    ensures Cells(ps, threshold, width)[width * k..width * k + width] == Cell(ps[k], threshold, width)
  {
    var before, after := ps[..k], ps[k + 1..];
    assert ps == before + [ps[k]] + after;
    CellsAppend(before + [ps[k]], after, threshold, width);
    CellsAppend(before, [ps[k]], threshold, width);
    assert Cells([ps[k]], threshold, width) == Cell(ps[k], threshold, width) by {
      assert [ps[k]][..0] == [];
    }
    CellsLength(before, threshold, width);
    var x := Cells(before, threshold, width);
    var c := Cell(ps[k], threshold, width);
    var y := Cells(after, threshold, width);
    assert Cells(ps, threshold, width) == x + c + y;
    assert (x + c + y)[|x|..|x| + |c|] == c;
  }

  /** A chart row: the threshold as '{0:.1f}', a " |" rule, the cells, a newline. */
  function ChartLine(ps: seq<real>, threshold: real, width: nat, fmt1: real -> string): string
  {
    fmt1(threshold) + " |" + Cells(ps, threshold, width) + "\n"
  }

  function ChartLines(ps: seq<real>, thresholds: seq<real>, width: nat, fmt1: real -> string): string
  {
    if thresholds == [] then ""
    else ChartLines(ps, thresholds[..|thresholds| - 1], width, fmt1)
         + ChartLine(ps, thresholds[|thresholds| - 1], width, fmt1)
  }

  /** A sample's column is filled in a row exactly when it exceeds that row's threshold, so a column filled in one row stays filled in every row below it. */
  lemma FilledStaysFilled(ps: seq<real>, height: int, width: nat, i: nat, j: nat, k: nat)
    requires height > 1 && i <= j < height && k < |ps|
    requires Cell(ps[k], Thresholds(height)[i], width) == Repeat('|', width)
    requires width > 0
    ensures Cell(ps[k], Thresholds(height)[j], width) == Repeat('|', width)
  {
    ThresholdsDecrease(height);
    var t := Thresholds(height);
    assert ps[k] > t[i] by {
      assert Cell(ps[k], t[i], width)[0] == '|';
    }
  }

  /** A sample at or below 5/h² (zero, say) is blank in every row. */
  lemma LowSampleBlank(p: real, height: int, width: nat)
    requires height > 1
    requires p <= 5.0 / ((height as real) * (height as real))
    ensures forall i :: 0 <= i < height ==> Cell(p, Thresholds(height)[i], width) == Repeat(' ', width)
  {
    ThresholdsDecrease(height);
    var t := Thresholds(height);
    forall i | 0 <= i < height
      ensures Cell(p, t[i], width) == Repeat(' ', width)
    {
      assert i < height - 1 ==> t[i] > t[height - 1];
    }
  }

  /** '{:^w}': centred in a field of `width`, the odd blank going to the right. */
  function Center(s: string, width: nat): (r: string)
    ensures |r| == if width > |s| then width else |s|
  {
    if width <= |s| then s
    else
      var left := (width - |s|) / 2;
      Repeat(' ', left) + s + Repeat(' ', width - |s| - left)
  }

  /**
   * A label narrower than the field sits after (width - |s|) / 2 blanks and
   * is followed by as many blanks or one more.
   */
  lemma CenterPlacement(s: string, width: nat)
    requires |s| < width
    ensures var left := (width - |s|) / 2;
            var r := Center(s, width);
            && r[..left] == Repeat(' ', left)
            && r[left..left + |s|] == s
            && r[left + |s|..] == Repeat(' ', width - |s| - left)
            && left <= width - |s| - left <= left + 1
  {
    var left := (width - |s|) / 2;
    var a, b := Repeat(' ', left), Repeat(' ', width - |s| - left);
    assert Center(s, width) == a + s + b;
    assert (a + s + b)[..left] == a;
    assert (a + s + b)[left..left + |s|] == s;
    assert (a + s + b)[left + |s|..] == b;
  }

  /** Labels no wider than a cell take exactly one cell's width each. */
  lemma {:induction false} CenteredLabelsLength(labels: seq<string>, width: nat)
    requires forall i :: 0 <= i < |labels| ==> |labels[i]| <= width
    ensures |CenteredLabels(labels, width)| == width * |labels|
  {
    if labels != [] {
      CenteredLabelsLength(labels[..|labels| - 1], width);
      assert width * |labels| == width * (|labels| - 1) + width;
    }
  }

  /** With cells at least two wide, the axis row is five blanks, 13 cells and a newline. */
  lemma AxisRowLength(width: nat)
    requires width >= 2
    ensures |AxisRow(TimeStampLabels, width)| == 6 + 13 * width
  {
    AxisRowLengthOf(TimeStampLabels, width);
  }

  /** Thirteen labels that each fit their cell give an axis row of five blanks, thirteen cells and a newline. */
  lemma AxisRowLengthOf(labels: seq<string>, width: nat)
    requires |labels| == 13
    requires forall i :: 0 <= i < |labels| ==> |labels[i]| <= width
    ensures |AxisRow(labels, width)| == 6 + 13 * width
  {
    CenteredLabelsLength(labels, width);
  }

  /** The label row: five blanks, then each label centred in a cell's width. */
  function AxisRow(labels: seq<string>, width: nat): string
  {
    "     " + CenteredLabels(labels, width) + "\n"
  }

  function CenteredLabels(labels: seq<string>, width: nat): string
  {
    if labels == [] then "" else CenteredLabels(labels[..|labels| - 1], width) + Center(labels[|labels| - 1], width)
  }

  /**
   * The chart for a given height: the glyph row when the height is 1; no
   * chart at all when it is 0, since computing the step divides by it; the
   * threshold rows and the axis otherwise.
   */
  function Chart(ps: seq<real>, height: int, width: nat, labels: seq<string>, fmt1: real -> string): Option<string>
  {
    if height == 1 then Some(GlyphRow(ps) + "\n")
    else if height == 0 then None
    else Some(ChartLines(ps, Thresholds(height), width, fmt1) + AxisRow(labels, width))
  }
}

=== FILE: results.dfy ===
/** Failure-compatible wrappers shared by the weather and configuration models. */
module Results {

  datatype Option<+T> = None | Some(value: T)

  /** The failures a run of the weather viewer can end in. */
  datatype Error =
    | ParseError          // a document lacks a field, has the wrong shape, or does not convert
    | FetchIncomplete     // one of the two downloads produced no content
    | InvalidSectionName  // configparser refuses a section called DEFAULT
    | DuplicateSection    // configparser refuses to add a section twice
    | NoSuchSection       // a configuration section lookup that finds nothing
    | NoDefaultLocation   // no section is marked as the default one
    | MissingOption       // a section lacks an option that is read unconditionally
    | NoConfigDirectory   // the configuration directory is absent, so the file cannot be written

  /** The end of an operation that returns nothing: it either completes or raises. */
  datatype Outcome = Pass | Fail(error: Error)

  datatype Result<+T> = Success(value: T) | Failure(error: Error) {
    predicate IsFailure() { Failure? }

    function PropagateFailure<U>(): Result<U>
      requires Failure?
    {
      Failure(error)
    }

    function Extract(): T
      requires Success?
    {
      value
    }
  }
}

=== FILE: settings.dfy ===
/**
 * The configuration file: a DEFAULT block of fallback options and an
 * ordered list of named sections, one per saved place. Every operation
 * reads the stored file afresh and the updating ones write it back whole.
 * A lookup in a section falls back to the DEFAULT block, so what a section
 * answers is the DEFAULT block overridden by its own options.
 */
module Settings {
  import opened Results

  /** The options the installed file starts from. */
  const Defaults: map<string, string> :=
    map["show_precipitation_now" := "True", "show_forecast_row" := "True",
        "bar_height" := "5", "bar_width" := "5", "language" := "en"]

  /** The name reserved for the fallback block; no section may take it. */
  const DefaultBlockName: string := "DEFAULT"

  datatype Section = Section(name: string, options: map<string, string>)

  datatype Config = Config(defaults: map<string, string>, sections: seq<Section>)

  function Names(c: Config): (r: seq<string>)
    ensures |r| == |c.sections|
  {
    seq(|c.sections|, i requires 0 <= i < |c.sections| => c.sections[i].name)
  }

  /** What a parsed file always satisfies: distinct section names, none of them the reserved one. */
  predicate WellFormed(c: Config)
  {
    && (forall i, j :: 0 <= i < j < |c.sections| ==> c.sections[i].name != c.sections[j].name)
    && (forall i :: 0 <= i < |c.sections| ==> c.sections[i].name != DefaultBlockName)
  }

  /** The options a section answers with: its own, falling back to the DEFAULT block. */
  function View(c: Config, i: nat): map<string, string>
    requires i < |c.sections|
  {
    c.defaults + c.sections[i].options
  }

  /** A section counts as the default place only when its `default` value is exactly "True". */
  predicate Marked(options: map<string, string>)
  {
    "default" in options && options["default"] == "True"
  }

  // ---------------------------------------------------------------------
  // Adding sections
  // ---------------------------------------------------------------------

  /**
   * Appending a section, refused for the reserved name and for a name already
   * present; a well-formed file stays well-formed.
   */
  function AddSection(c: Config, name: string, options: map<string, string>): (r: Result<Config>)
    ensures r.Success? <==> name != DefaultBlockName && forall i :: 0 <= i < |c.sections| ==> c.sections[i].name != name
    ensures r.Failure? ==> r.error == if name == DefaultBlockName then InvalidSectionName else DuplicateSection
    ensures r.Success? && WellFormed(c) ==> WellFormed(r.value)
  {
    NamesMembership(c, name);
    if name == DefaultBlockName then Failure(InvalidSectionName)
    else if name in Names(c) then Failure(DuplicateSection)
    else
      AppendKeepsWellFormed(c, Section(name, options));
      Success(Config(c.defaults, c.sections + [Section(name, options)]))
  }

  /** A section whose name is new and not the reserved one keeps the names distinct. */
  lemma AppendKeepsWellFormed(c: Config, s: Section)
    requires s.name != DefaultBlockName
    requires forall i :: 0 <= i < |c.sections| ==> c.sections[i].name != s.name
    ensures WellFormed(c) ==> WellFormed(Config(c.defaults, c.sections + [s]))
  {
    var d := Config(c.defaults, c.sections + [s]);
    if WellFormed(c) {
      forall i, j | 0 <= i < j < |d.sections|
        ensures d.sections[i].name != d.sections[j].name
      {
        assert d.sections[i] == c.sections[i];
      }
    }
  }

  /** The file install_default_config writes: built from the DEFAULT block alone. */
  function Installed(name: string, location: string, language: string): Result<Config>
  {
    AddSection(Config(Defaults, []), name,
               map["location" := location, "default" := "True", "language" := language])
  }

  /** The file add_location writes. */
  function WithLocation(c: Config, name: string, location: string, default: string): Result<Config>
  {
    AddSection(c, name, map["location" := location, "default" := default])
  }

  // ---------------------------------------------------------------------
  // Choosing the default place
  // ---------------------------------------------------------------------

  /** Every section marked "default" = "True", the given one and only it; nothing else changes. */
  function WithDefault(c: Config, place: string): Config
  {
    Config(c.defaults,
           seq(|c.sections|, i requires 0 <= i < |c.sections| =>
             Section(c.sections[i].name,
                     c.sections[i].options["default" := if c.sections[i].name == place then "True" else "False"])))
  }

  /** The first section at or after `from` whose view is marked. */
  function FirstMarked(c: Config, from: nat): (r: Option<nat>)
    requires from <= |c.sections|
    ensures r.Some? ==> from <= r.value < |c.sections| && Marked(View(c, r.value))
    ensures r.Some? ==> forall j :: from <= j < r.value ==> !Marked(View(c, j))
    ensures r.None? ==> forall j :: from <= j < |c.sections| ==> !Marked(View(c, j))
    decreases |c.sections| - from
  {
    if from == |c.sections| then None
    else if Marked(View(c, from)) then Some(from)
    else FirstMarked(c, from + 1)
  }

  /** The section get_default_config hands back: the first marked one, in file order. */
  function DefaultSection(c: Config): Result<Section>
  {
    match FirstMarked(c, 0)
    case None => Failure(NoDefaultLocation)
    case Some(i) => Success(Section(c.sections[i].name, View(c, i)))
  }

  /** The position of the section called `name`, if any. */
  function Find(c: Config, name: string, from: nat): (r: Option<nat>)
    requires from <= |c.sections|
    ensures r.Some? ==> from <= r.value < |c.sections| && c.sections[r.value].name == name
    ensures r.Some? ==> forall j :: from <= j < r.value ==> c.sections[j].name != name
    ensures r.None? ==> forall j :: from <= j < |c.sections| ==> c.sections[j].name != name
    decreases |c.sections| - from
  {
    if from == |c.sections| then None
    else if c.sections[from].name == name then Some(from)
    else Find(c, name, from + 1)
  }

  /** The line list_places prints for a section, given the options it answers with. */
  function PlaceLine(name: string, options: map<string, string>): string
    requires "location" in options
  {
    name + ": " + options["location"] + " " + (if Marked(options) then "[DEFAULT]" else "")
  }

  // ---------------------------------------------------------------------
  // Properties
  // ---------------------------------------------------------------------

  lemma NamesMembership(c: Config, name: string)
    ensures name in Names(c) <==> exists i :: 0 <= i < |c.sections| && c.sections[i].name == name
  {
    if name in Names(c) {
      var i :| 0 <= i < |Names(c)| && Names(c)[i] == name;
      assert c.sections[i].name == name;
    }
    if exists i :: 0 <= i < |c.sections| && c.sections[i].name == name {
      var i :| 0 <= i < |c.sections| && c.sections[i].name == name;
      assert Names(c)[i] == name;
    }
  }

  /**
   * After choosing a default place, a section is marked exactly when it is
   * called `place`, every other section says "False", and the section list,
   * its order, the DEFAULT block and every other option are unchanged.
   */
  lemma SetDefaultEffect(c: Config, place: string)
    ensures var d := WithDefault(c, place);
            && d.defaults == c.defaults
            && Names(d) == Names(c)
            && forall i :: 0 <= i < |c.sections| ==>
                 && (Marked(View(d, i)) <==> c.sections[i].name == place)
                 && View(d, i)["default"] == (if c.sections[i].name == place then "True" else "False")
                 && forall k :: k != "default" ==>
                      (k in d.sections[i].options <==> k in c.sections[i].options)
                      && (k in c.sections[i].options ==> d.sections[i].options[k] == c.sections[i].options[k])
  {
  }

  /** Choosing the same place twice is choosing it once. */
  lemma SetDefaultIdempotent(c: Config, place: string)
    ensures WithDefault(WithDefault(c, place), place) == WithDefault(c, place)
  {
    var once := WithDefault(c, place);
    var twice := WithDefault(once, place);
    forall i | 0 <= i < |c.sections|
      ensures twice.sections[i] == once.sections[i]
    {
      assert twice.sections[i].options == once.sections[i].options;
    }
  }

  /** Choosing a default place keeps a file well formed. */
  lemma SetDefaultWellFormed(c: Config, place: string)
    requires WellFormed(c)
    ensures WellFormed(WithDefault(c, place))
  {
  }

  /**
   * After choosing a place, the default section is that place when the
   * file has it, and there is no default place at all when it does not.
   */
  lemma {:induction false} SetDefaultThenGet(c: Config, place: string)
    requires WellFormed(c)
    ensures var r := DefaultSection(WithDefault(c, place));
            && (r.Success? <==> place in Names(c))
            && (r.Failure? ==> r.error == NoDefaultLocation)
            && (r.Success? ==> r.value.name == place && Marked(r.value.options))
  {
    var d := WithDefault(c, place);
    SetDefaultEffect(c, place);
    NamesMembership(c, place);
    var m := FirstMarked(d, 0);
    if m.Some? {
      assert c.sections[m.value].name == place;
      assert Names(c)[m.value] == place;
    }
  }

  /** Adding a place appends one section and keeps every earlier one as it was. */
  lemma AddLocationEffect(c: Config, name: string, location: string, default: string)
    ensures var r := WithLocation(c, name, location, default);
            && (r.Success? <==> name != DefaultBlockName && name !in Names(c))
            && (r.Success? ==> && |r.value.sections| == |c.sections| + 1
                               && r.value.sections[..|c.sections|] == c.sections
                               && r.value.sections[|c.sections|].name == name
                               && View(r.value, |c.sections|)["location"] == location
                               && View(r.value, |c.sections|)["default"] == default
                               && r.value.defaults == c.defaults)
  {
    var r := WithLocation(c, name, location, default);
    if r.Success? {
      assert r.value.sections[..|c.sections|] == c.sections;
    }
  }

  /**
   * Adding a place does not clear other defaults: a file that already had a
   * default place keeps it, even when the new place is also marked, since
   * the earlier section wins; a file without one gets the new place as its
   * default exactly when it is added with "True".
   */
  lemma {:induction false} AddKeepsEarlierDefault(c: Config, name: string, location: string, default: string)
    requires WithLocation(c, name, location, default).Success?
    ensures var d := WithLocation(c, name, location, default).value;
            && (DefaultSection(c).Success? ==> DefaultSection(d) == DefaultSection(c))
            && (DefaultSection(c).Failure? ==>
                  (DefaultSection(d).Success? <==> default == "True")
                  && (DefaultSection(d).Success? ==> DefaultSection(d).value.name == name))
  {
    var d := WithLocation(c, name, location, default).value;
    var n := |c.sections|;
    assert forall j :: 0 <= j < n ==> d.sections[j] == c.sections[j];
    FirstMarkedExtends(c, d, 0);
    assert View(d, n)["default"] == default;
  }

  /** Scanning an extended list finds the same marked section when the old list has one. */
  lemma {:induction false} FirstMarkedExtends(c: Config, d: Config, from: nat)
    requires from <= |c.sections| < |d.sections|
    requires |d.sections| == |c.sections| + 1
    requires d.defaults == c.defaults
    requires forall j :: 0 <= j < |c.sections| ==> d.sections[j] == c.sections[j]
    ensures FirstMarked(c, from).Some? ==> FirstMarked(d, from) == FirstMarked(c, from)
    ensures FirstMarked(c, from).None? ==>
              FirstMarked(d, from) == if Marked(View(d, |c.sections|)) then Some(|c.sections|) else None
    decreases |c.sections| - from
  {
    if from < |c.sections| {
      FirstMarkedExtends(c, d, from + 1);
    } else {
      assert FirstMarked(d, from + 1) == None;
    }
  }

  /**
   * Installing builds a file with exactly one section, holding the place, the
   * language and the default mark, over the DEFAULT block; whatever was stored
   * before plays no part, and that section is the default place.
   */
  lemma InstalledShape(name: string, location: string, language: string)
    ensures var r := Installed(name, location, language);
            && (r.Success? <==> name != DefaultBlockName)
            && (r.Failure? ==> r.error == InvalidSectionName)
            && (r.Success? ==> && r.value.defaults == Defaults
                               && |r.value.sections| == 1
                               && r.value.sections[0].name == name
                               && View(r.value, 0)["location"] == location
                               && View(r.value, 0)["language"] == language
                               && View(r.value, 0)["bar_height"] == "5"
                               && View(r.value, 0)["bar_width"] == "5"
                               && DefaultSection(r.value) == Success(Section(name, View(r.value, 0)))
                               && WellFormed(r.value))
  {
    var r := Installed(name, location, language);
    if r.Success? {
      assert FirstMarked(r.value, 1) == None;
      assert Marked(View(r.value, 0));
    }
  }

  // ---------------------------------------------------------------------
  // The stored file
  // ---------------------------------------------------------------------

  /** What reading a missing file gives: no defaults and no sections. */
  const EmptyConfig: Config := Config(map[], [])

  class ConfigFile {
    /** What the file holds; a missing file reads as EmptyConfig. */
    var stored: Config
    /** Whether the configuration directory exists; only installing creates it. */
    var directoryExists: bool

    ghost predicate Valid()
      reads this
    {
      WellFormed(stored) && (!directoryExists ==> stored == EmptyConfig)
    }

    constructor (stored: Config, directoryExists: bool)
      requires WellFormed(stored) && (!directoryExists ==> stored == EmptyConfig)
      ensures Valid() && this.stored == stored && this.directoryExists == directoryExists
    {
      this.stored := stored;
      this.directoryExists := directoryExists;
    }

    /**
     * Writes a fresh file with the DEFAULT block and one default place,
     * creating the directory first; refused for the reserved name before
     * anything is created.
     */
    method InstallDefaultConfig(name: string, location: string, language: string) returns (r: Outcome)
      requires Valid()
      modifies this
      ensures Valid()
      ensures var installed := Installed(name, location, language);
              && (r.Pass? <==> installed.Success?)
              && (r.Pass? ==> stored == installed.value && directoryExists)
              && (r.Fail? ==> && r.error == installed.error
                              && stored == old(stored) && directoryExists == old(directoryExists))
    {
      var installed := Installed(name, location, language);
      InstalledShape(name, location, language);
      if installed.Failure? {
        return Fail(installed.error);
      }
      directoryExists := true;
      stored := installed.value;
      r := Pass;
    }

    /**
     * Appends a place to the stored file; refused for the reserved name or a
     * name already there, and unwritable when the directory is absent.
     */
    method AddLocation(name: string, location: string, default: string) returns (r: Outcome)
      requires Valid()
      modifies this`stored
      ensures Valid()
      ensures var added := WithLocation(old(stored), name, location, default);
              && (r.Pass? <==> added.Success? && directoryExists)
              && (r.Pass? ==> stored == added.value)
              && (r.Fail? ==> stored == old(stored))
              && (r.Fail? && added.Failure? ==> r.error == added.error)
              && (r.Fail? && added.Success? ==> r.error == NoConfigDirectory)
    {
      var added := WithLocation(stored, name, location, default);
      if added.Failure? {
        return Fail(added.error);
      }
      if !directoryExists {
        return Fail(NoConfigDirectory);
      }
      stored := added.value;
      r := Pass;
    }

    /**
     * One line per section, in file order; a section whose view has no
     * location stops the listing with an error after the lines before it.
     */
    method ListPlaces() returns (lines: seq<string>, r: Outcome)
      ensures r.Pass? <==> forall i :: 0 <= i < |stored.sections| ==> "location" in View(stored, i)
      ensures r.Pass? ==> |lines| == |stored.sections|
      ensures r.Fail? ==> && r.error == MissingOption
                          && |lines| < |stored.sections|
                          && "location" !in View(stored, |lines|)
      ensures forall i :: 0 <= i < |lines| ==>
                && "location" in View(stored, i)
                && lines[i] == PlaceLine(stored.sections[i].name, View(stored, i))
    {
      lines := [];
      var i := 0;
      while i < |stored.sections|
        invariant 0 <= i <= |stored.sections| && |lines| == i
        invariant forall j :: 0 <= j < i ==>
                    && "location" in View(stored, j)
                    && lines[j] == PlaceLine(stored.sections[j].name, View(stored, j))
      {
        var options := stored.defaults + stored.sections[i].options;
        var marker: string;
        if "default" in options && options["default"] == "True" {
          marker := "[DEFAULT]";
        } else {
          marker := "";
        }
        if "location" !in options {
          assert "location" !in View(stored, i);
          return lines, Fail(MissingOption);
        }
        lines := lines + [stored.sections[i].name + ": " + options["location"] + " " + marker];
        i := i + 1;
      }
      r := Pass;
    }

    /** The section called `name` (the DEFAULT block itself for the reserved name). */
    function GetConfig(name: string): (r: Result<map<string, string>>)
      reads this
      ensures r.Success? <==> name == DefaultBlockName || name in Names(stored)
      ensures r.Failure? ==> r.error == NoSuchSection
      ensures name == DefaultBlockName ==> r == Success(stored.defaults)
      ensures WellFormed(stored) && name != DefaultBlockName ==>
                forall i :: 0 <= i < |stored.sections| && stored.sections[i].name == name ==>
                  r == Success(View(stored, i))
    {
      if name == DefaultBlockName then Success(stored.defaults)
      else match Find(stored, name, 0)
        case None =>
          NamesMembership(stored, name);
          Failure(NoSuchSection)
        case Some(i) =>
          NamesMembership(stored, name);
          Success(View(stored, i))
    }

    /** Scans the sections in order and returns the first one marked as the default place. */
    method GetDefaultConfig() returns (r: Result<Section>)
      ensures r == DefaultSection(stored)
    {
      var i := 0;
      while i < |stored.sections|
        invariant 0 <= i <= |stored.sections|
        invariant FirstMarked(stored, 0) == FirstMarked(stored, i)
      {
        var options := stored.defaults + stored.sections[i].options;
        if "default" in options && options["default"] == "True" {
          return Success(Section(stored.sections[i].name, options));
        }
        i := i + 1;
      }
      r := Failure(NoDefaultLocation);
    }

    /**
     * Rewrites every section's `default` option, "True" for `place` and
     * "False" for the rest; unwritable when the directory is absent.
     */
    method SetDefaultLocation(place: string) returns (r: Outcome)
      requires Valid()
      modifies this`stored
      ensures Valid()
      ensures r.Pass? <==> directoryExists
      ensures r.Pass? ==> stored == WithDefault(old(stored), place)
      ensures r.Fail? ==> r.error == NoConfigDirectory && stored == old(stored)
    {
      SetDefaultWellFormed(stored, place);
      var sections := stored.sections;
      var i := 0;
      while i < |sections|
        invariant 0 <= i <= |sections| && |sections| == |old(stored).sections|
        invariant sections[..i] == WithDefault(old(stored), place).sections[..i]
        invariant sections[i..] == old(stored).sections[i..]
      {
        var s := sections[i];
        var flag := if s.name == place then "True" else "False";
        assert s == old(stored).sections[i];
        sections := sections[i := Section(s.name, s.options["default" := flag])];
        i := i + 1;
      }
      assert sections == WithDefault(old(stored), place).sections;
      if !directoryExists {
        return Fail(NoConfigDirectory);
      }
      stored := Config(stored.defaults, sections);
      r := Pass;
    }
  }
}

=== FILE: timestamps.dfy ===
/**
 * Date-times as the weather feed writes them ("%Y-%m-%dT%H:%M:%S"), compared
 * the way Python compares naive datetime values: field by field, most
 * significant first.
 */
module Timestamps {

  datatype Timestamp = Timestamp(year: nat, month: nat, day: nat, hour: nat, minute: nat, second: nat)

  /** Strictly earlier, in lexicographic order of (year, month, day, hour, minute, second). */
  predicate Before(a: Timestamp, b: Timestamp)
  {
    if a.year != b.year then a.year < b.year
    else if a.month != b.month then a.month < b.month
    else if a.day != b.day then a.day < b.day
    else if a.hour != b.hour then a.hour < b.hour
    else if a.minute != b.minute then a.minute < b.minute
    else a.second < b.second
  }

  /** No instant is before itself: a next-update time equal to now is not stale. */
  lemma BeforeIrreflexive(a: Timestamp)
    ensures !Before(a, a)
  {
  }

  lemma BeforeTransitive(a: Timestamp, b: Timestamp, c: Timestamp)
    requires Before(a, b) && Before(b, c)
    ensures Before(a, c)
  {
  }

  /** Any two distinct instants are ordered one way, and never both. */
  lemma BeforeTrichotomy(a: Timestamp, b: Timestamp)
    ensures a == b || Before(a, b) || Before(b, a)
    ensures !(Before(a, b) && Before(b, a))
  {
  }
}

=== FILE: weather.dfy ===
/**
 * The Weather object: it loads the two documents for a location from the
 * cache or, when the cache misses or is out of date, from the server
 * (writing both documents to the cache before parsing them), keeps the
 * parsed fields, and prints the "now" view.
 *
 * The file system is a Cache object mapping a directory name to its two
 * files; the downloads, the current time and float formatting are
 * parameters.
 */
module WeatherModel {
  import opened Results
  import opened Timestamps
  import opened Documents
  import opened Forecasts
  import opened Rendering
  import opened CacheDirs

  // ---------------------------------------------------------------------
  // The cache and the load decision, as values
  // ---------------------------------------------------------------------

  /** One cache directory: the forecast file and the precipitation-now file, each present or absent. */
  datatype CacheDir = CacheDir(forecast: Option<Doc>, precipitationNow: Option<Doc>)

  const EmptyDir: CacheDir := CacheDir(None, None)

  /** Both documents, parsed. */
  datatype Parsed = Parsed(forecast: Forecast, now: NowForecast)

  /** Parsing two raw files: XML first (forecast, then precipitation), then the two extractions. */
  function ParseFiles(forecastFile: Doc, nowFile: Doc): Result<Parsed>
  {
    if forecastFile.tree.None? || nowFile.tree.None? then Failure(ParseError)
    else
      var forecast :- ParseForecast(forecastFile.tree.value);
      var now :- ParsePrecipitationNow(nowFile.tree.value);
      Success(Parsed(forecast, now))
  }

  /** What trying the cache ends in. */
  datatype CacheRead =
    | Miss               // a file is absent
    | Broken             // a file is there but does not parse; nothing catches this
    | Stale              // parsed, but its next update lies strictly in the past
    | Fresh(data: Parsed)

  /**
   * The forecast file is opened and XML-parsed before the precipitation
   * file is opened, so a malformed forecast file is an error even when the
   * other file is missing.
   */
  function ReadCache(dir: CacheDir, now: Timestamp): CacheRead
  {
    match dir.forecast
    case None => Miss
    case Some(f) =>
      if f.tree.None? then Broken
      else match dir.precipitationNow
        case None => Miss
        case Some(n) =>
          match ParseFiles(f, n)
          case Failure(_) => Broken
          case Success(p) => if Before(p.now.nextUpdate, now) then Stale else Fresh(p)
  }

  /** The post-join check on the two downloads: each must have produced non-empty content. */
  function Downloaded(forecast: Option<Doc>, now: Option<Doc>): Result<(Doc, Doc)>
  {
    match (forecast, now)
    case (Some(f), Some(n)) =>
      if f.content != "" && n.content != "" then Success((f, n)) else Failure(FetchIncomplete)
    case _ => Failure(FetchIncomplete)
  }

  /** Loading from the server: the downloads are written, then parsed. */
  function ServerLoad(fetched: Result<(Doc, Doc)>): Result<Parsed>
  {
    var docs :- fetched;
    ParseFiles(docs.0, docs.1)
  }

  /** The cache directory after a server load: both files overwritten when the download completed. */
  function DirAfterServerLoad(dir: CacheDir, fetched: Result<(Doc, Doc)>): CacheDir
  {
    if fetched.Success? then CacheDir(Some(fetched.value.0), Some(fetched.value.1)) else dir
  }

  predicate Fetches(dir: CacheDir, now: Timestamp)
  {
    ReadCache(dir, now).Miss? || ReadCache(dir, now).Stale?
  }

  datatype Source = FromCache | FromServer

  datatype Loaded = Loaded(source: Source, data: Parsed)

  /** The load decision: cached data when fresh, a server load on a miss or stale data, an error otherwise. */
  function Load(dir: CacheDir, now: Timestamp, fetched: Result<(Doc, Doc)>): Result<Loaded>
  {
    match ReadCache(dir, now)
    case Fresh(p) => Success(Loaded(FromCache, p))
    case Broken => Failure(ParseError)
    case _ =>
      var p :- ServerLoad(fetched);
      Success(Loaded(FromServer, p))
  }

  function DirAfterLoad(dir: CacheDir, now: Timestamp, fetched: Result<(Doc, Doc)>): CacheDir
  {
    if Fetches(dir, now) then DirAfterServerLoad(dir, fetched) else dir
  }

  /**
   * Cached data is used exactly when both files are there, both parse, and
   * the next update is not strictly before now (equal counts as fresh).
   */
  lemma UsesCacheIff(dir: CacheDir, now: Timestamp, fetched: Result<(Doc, Doc)>)
    ensures (Load(dir, now, fetched).Success? && Load(dir, now, fetched).value.source == FromCache)
            <==> (&& dir.forecast.Some? && dir.precipitationNow.Some?
                  && ParseFiles(dir.forecast.value, dir.precipitationNow.value).Success?
                  && !Before(ParseFiles(dir.forecast.value, dir.precipitationNow.value).value.now.nextUpdate, now))
  {
  }

  /**
   * The server is asked exactly when the forecast file is absent, or it is
   * well-formed and the precipitation file is absent, or both parse and the
   * data is stale.
   */
  lemma FetchesIff(dir: CacheDir, now: Timestamp)
    ensures Fetches(dir, now) <==>
              || dir.forecast.None?
              || (dir.forecast.value.tree.Some? && dir.precipitationNow.None?)
              || (&& dir.precipitationNow.Some?
                  && ParseFiles(dir.forecast.value, dir.precipitationNow.value).Success?
                  && Before(ParseFiles(dir.forecast.value, dir.precipitationNow.value).value.now.nextUpdate, now))
  {
  }

  /** When the cache answers (fresh or broken), the server's answer plays no part and the cache is untouched. */
  lemma NoFetchIgnoresDownload(dir: CacheDir, now: Timestamp, a: Result<(Doc, Doc)>, b: Result<(Doc, Doc)>)
    requires !Fetches(dir, now)
    ensures Load(dir, now, a) == Load(dir, now, b)
    ensures DirAfterLoad(dir, now, a) == dir
  {
  }

  /**
   * Only a missing file is caught. A malformed cached forecast file, or two
   * present files of which either is malformed or fails extraction, is an
   * error: it does not fall back to the server.
   */
  lemma BrokenCacheIsFatal(dir: CacheDir, now: Timestamp, fetched: Result<(Doc, Doc)>)
    requires dir.forecast.Some?
    requires || dir.forecast.value.tree.None?
             || (dir.precipitationNow.Some? && ParseFiles(dir.forecast.value, dir.precipitationNow.value).Failure?)
    ensures Load(dir, now, fetched) == Failure(ParseError)
    ensures DirAfterLoad(dir, now, fetched) == dir
  {
  }

  /**
   * A completed download overwrites both files before anything is parsed,
   * so the cache holds the fetched documents even when parsing them fails.
   */
  lemma FetchWritesCache(dir: CacheDir, now: Timestamp, fetched: Result<(Doc, Doc)>)
    requires Fetches(dir, now) && fetched.Success?
    ensures DirAfterLoad(dir, now, fetched) == CacheDir(Some(fetched.value.0), Some(fetched.value.1))
    ensures Load(dir, now, fetched).Success? <==> ParseFiles(fetched.value.0, fetched.value.1).Success?
    ensures Load(dir, now, fetched).Success? ==>
              Load(dir, now, fetched).value == Loaded(FromServer, ParseFiles(fetched.value.0, fetched.value.1).value)
  {
  }

  /**
   * A download that is missing or came back empty is fatal: no stale data is
   * served and the cache keeps what it had.
   */
  lemma IncompleteDownloadIsFatal(dir: CacheDir, now: Timestamp, forecast: Option<Doc>, precipitation: Option<Doc>)
    requires Fetches(dir, now)
    requires || forecast.None? || precipitation.None?
             || forecast.value.content == "" || precipitation.value.content == ""
    ensures Load(dir, now, Downloaded(forecast, precipitation)) == Failure(FetchIncomplete)
    ensures DirAfterLoad(dir, now, Downloaded(forecast, precipitation)) == dir
  {
  }

  /** A next update equal to now is still fresh. */
  lemma NextUpdateEqualNowIsFresh(dir: CacheDir, p: Parsed)
    requires dir.forecast.Some? && dir.precipitationNow.Some?
    requires ParseFiles(dir.forecast.value, dir.precipitationNow.value) == Success(p)
    ensures ReadCache(dir, p.now.nextUpdate) == Fresh(p)
  {
    BeforeIrreflexive(p.now.nextUpdate);
  }

  /**
   * What a server load writes, a later load reads back: as long as its next
   * update has not passed, the next run serves the same data from the cache
   * without asking the server.
   */
  lemma {:induction false} ServerLoadReadsBack(dir: CacheDir, now: Timestamp, fetched: Result<(Doc, Doc)>,
                                               later: Timestamp, again: Result<(Doc, Doc)>)
    requires Load(dir, now, fetched).Success? && Load(dir, now, fetched).value.source == FromServer
    requires !Before(Load(dir, now, fetched).value.data.now.nextUpdate, later)
    ensures Load(DirAfterLoad(dir, now, fetched), later, again)
            == Success(Loaded(FromCache, Load(dir, now, fetched).value.data))
  {
    assert Fetches(dir, now);
    var docs := fetched.value;
    var written := DirAfterLoad(dir, now, fetched);
    assert written == CacheDir(Some(docs.0), Some(docs.1));
    assert ParseFiles(docs.0, docs.1) == Success(Load(dir, now, fetched).value.data);
    assert docs.0.tree.Some?;
    assert ReadCache(written, later) == Fresh(Load(dir, now, fetched).value.data);
  }

  // ---------------------------------------------------------------------
  // The XML trees a load leaves behind
  // ---------------------------------------------------------------------

  /** The two documents as parsed XML, as last assigned. */
  datatype Trees = Trees(forecastData: Option<Node>, precipitationNowData: Option<Node>)

  /**
   * Each tree is assigned as soon as its file parses as XML, forecast first,
   * so a malformed precipitation file leaves the new forecast tree beside the
   * old precipitation tree.
   */
  function TreesAfterParse(forecastFile: Doc, nowFile: Doc, t: Trees): Trees
  {
    if forecastFile.tree.None? then t
    else if nowFile.tree.None? then Trees(forecastFile.tree, t.precipitationNowData)
    else Trees(forecastFile.tree, nowFile.tree)
  }

  /** Reading the cache: the forecast tree is assigned before the precipitation file is opened. */
  function TreesAfterCacheRead(dir: CacheDir, t: Trees): Trees
  {
    match dir.forecast
    case None => t
    case Some(f) =>
      match dir.precipitationNow
      case None => if f.tree.Some? then Trees(f.tree, t.precipitationNowData) else t
      case Some(n) => TreesAfterParse(f, n, t)
  }

  /** A server load parses the downloads only when both arrived. */
  function TreesAfterServerLoad(fetched: Result<(Doc, Doc)>, t: Trees): Trees
  {
    if fetched.Success? then TreesAfterParse(fetched.value.0, fetched.value.1, t) else t
  }

  /** The cache is read first; the downloads are parsed over what it left when the server is asked. */
  function TreesAfterLoad(dir: CacheDir, now: Timestamp, fetched: Result<(Doc, Doc)>, t: Trees): Trees
  {
    var cached := TreesAfterCacheRead(dir, t);
    if Fetches(dir, now) then TreesAfterServerLoad(fetched, cached) else cached
  }

  /**
   * After a successful load, whichever way it went, the stored trees are
   * exactly the ones the held data was extracted from.
   */
  lemma LoadedTreesParse(dir: CacheDir, now: Timestamp, fetched: Result<(Doc, Doc)>, t: Trees)
    requires Load(dir, now, fetched).Success?
    ensures var stored := TreesAfterLoad(dir, now, fetched, t);
            var data := Load(dir, now, fetched).value.data;
            && stored.forecastData.Some? && stored.precipitationNowData.Some?
            && ParseForecast(stored.forecastData.value) == Success(data.forecast)
            && ParsePrecipitationNow(stored.precipitationNowData.value) == Success(data.now)
  {
    if Fetches(dir, now) {
      var docs := fetched.value;
      assert ParseFiles(docs.0, docs.1) == Success(Load(dir, now, fetched).value.data);
      assert docs.0.tree.Some? && docs.1.tree.Some?;
    } else {
      var f, n := dir.forecast.value, dir.precipitationNow.value;
      assert ParseFiles(f, n) == Success(Load(dir, now, fetched).value.data);
      assert f.tree.Some? && n.tree.Some?;
    }
  }

  // ---------------------------------------------------------------------
  // The "now" view, as text
  // ---------------------------------------------------------------------

  /** Text printed by a call, and whether the call completed or raised part-way. */
  datatype Printed = Printed(text: string, complete: bool)

  /** The output of now(): optional forecast row, optional chart, then always the credit block. */
  function NowOutput(f: Forecast, ps: seq<real>, showPrecipitationNow: bool, showForecastRow: bool,
                     barHeight: int, barWidth: nat, labels: seq<string>, fmt: real -> string, fmt1: real -> string): Printed
  {
    var row := if showForecastRow then ForecastRow(f, fmt) else "";
    if !showPrecipitationNow then Printed(row + CreditLines(f), true)
    else match Chart(ps, barHeight, barWidth, labels, fmt1)
      case None => Printed(row, false)
      case Some(chart) => Printed(row + chart + CreditLines(f), true)
  }

  /**
   * now() completes unless a chart of height 0 is asked for; when it
   * completes, the credit text and URL are the last two lines, the forecast
   * row comes first when it is shown, and with neither element shown only
   * the credit is printed.
   */
  lemma NowLayout(f: Forecast, ps: seq<real>, showPrecipitationNow: bool, showForecastRow: bool,
                  barHeight: int, barWidth: nat, labels: seq<string>, fmt: real -> string, fmt1: real -> string)
    ensures var out := NowOutput(f, ps, showPrecipitationNow, showForecastRow, barHeight, barWidth, labels, fmt, fmt1);
            && (out.complete <==> !(showPrecipitationNow && barHeight == 0))
            && (out.complete ==> |out.text| >= |CreditLines(f)|
                                 && out.text[|out.text| - |CreditLines(f)|..] == CreditLines(f))
            && (showForecastRow ==> |out.text| >= |ForecastRow(f, fmt)|
                                    && out.text[..|ForecastRow(f, fmt)|] == ForecastRow(f, fmt))
            && (!showForecastRow && !showPrecipitationNow ==> out.text == CreditLines(f))
  {
    var row := if showForecastRow then ForecastRow(f, fmt) else "";
    var middle := if showPrecipitationNow && barHeight != 0 then Chart(ps, barHeight, barWidth, labels, fmt1).value else "";
    Framed(row, middle, CreditLines(f));
    Framed(row, "", "");
  }

  lemma PrefixOfPrefix(text: string, a: string, b: string)
    requires |a| <= |text| && text[..|a|] == a
    requires |b| <= |a| && a[..|b|] == b
    ensures text[..|b|] == b
  {
    assert text[..|b|] == text[..|a|][..|b|];
  }

  lemma AppendAssoc(a: string, b: string, c: string)
    ensures a + b + c == a + (b + c)
  {
  }

  lemma AppendAssoc3(a: string, b: string, c: string, d: string)
    ensures a + b + c + d == a + (b + c + d)
  {
  }

  /** The first and last parts of a three-part text. */
  lemma Framed(a: string, b: string, c: string)
    ensures |a + b + c| >= |a| + |c|
    ensures (a + b + c)[..|a|] == a
    ensures (a + b + c)[|a + b + c| - |c|..] == c
  {
    assert (a + b + c)[..|a|] == a;
    assert (a + b + c)[|a + b + c| - |c|..] == c;
  }

  /** With the forecast row shown, the output opens with "Gvarv, Norway" for that place. */
  lemma NowNamesPlace(f: Forecast, ps: seq<real>, showPrecipitationNow: bool,
                      barHeight: int, barWidth: nat, labels: seq<string>, fmt: real -> string, fmt1: real -> string)
    requires f.locationName == "Gvarv" && f.locationCountry == "Norway"
    ensures var text := NowOutput(f, ps, showPrecipitationNow, true, barHeight, barWidth, labels, fmt, fmt1).text;
            |text| >= 13 && text[..13] == "Gvarv, Norway"
  {
    NowLayout(f, ps, showPrecipitationNow, true, barHeight, barWidth, labels, fmt, fmt1);
    var text := NowOutput(f, ps, showPrecipitationNow, true, barHeight, barWidth, labels, fmt, fmt1).text;
    RowStartsWithPlace(f, fmt);
    PrefixOfPrefix(text, ForecastRow(f, fmt), Place(f));
    GvarvPlace(f);
    PrefixOfPrefix(text, Place(f), "Gvarv, Norway");
  }

  lemma GvarvPlace(f: Forecast)
    requires f.locationName == "Gvarv" && f.locationCountry == "Norway"
    ensures |Place(f)| >= 13 && Place(f)[..13] == "Gvarv, Norway"
  {
    assert Place(f) == "Gvarv, Norway: ";
  }

  // ---------------------------------------------------------------------
  // The objects
  // ---------------------------------------------------------------------

  /** The cache root: directory name to directory. */
  class Cache {
    var dirs: map<string, CacheDir>

    constructor (dirs: map<string, CacheDir>)
      ensures this.dirs == dirs
    {
      this.dirs := dirs;
    }
  }

  class Weather {
    const location: string
    const currentCacheDir: string
    /** The x-axis labels of the multi-row chart, a class attribute of the source. */
    const timeStampLabels: seq<string>
    var forecastData: Option<Node>
    var precipitationNowData: Option<Node>
    var forecast: Option<Forecast>
    var precipitationNow: seq<real>
    var lastUpdate: Option<Timestamp>
    var nextUpdate: Option<Timestamp>
    /** Everything printed so far. */
    var out: string

    /** A Weather object that has not loaded anything yet. */
    constructor (location: string)
      ensures this.location == location && currentCacheDir == PlaceToDirName(location)
      ensures timeStampLabels == TimeStampLabels
      ensures forecastData == None && precipitationNowData == None
      ensures forecast == None && precipitationNow == [] && lastUpdate == None && nextUpdate == None
      ensures out == ""
    {
      this.location := location;
      currentCacheDir := PlaceToDirName(location);
      timeStampLabels := TimeStampLabels;
      forecastData, precipitationNowData := None, None;
      forecast, precipitationNow, lastUpdate, nextUpdate := None, [], None, None;
      out := "";
    }

    /** The two XML trees the object holds. */
    function StoredTrees(): Trees
      reads this
    {
      Trees(forecastData, precipitationNowData)
    }

    /** The object's parsed fields are exactly `p`. */
    ghost predicate Holds(p: Parsed)
      reads this
    {
      && forecast == Some(p.forecast)
      && precipitationNow == p.now.values
      && lastUpdate == Some(p.now.lastUpdate)
      && nextUpdate == Some(p.now.nextUpdate)
    }

    /** Extracts the snapshot fields from the forecast document held. */
    method ParseForecastData() returns (r: Outcome)
      modifies this`forecast
      ensures forecastData.None? ==> r == Fail(ParseError)
      ensures forecastData.Some? ==> (r.Pass? <==> ParseForecast(forecastData.value).Success?)
      ensures r.Pass? ==> forecast == Some(ParseForecast(forecastData.value).value)
    {
      if forecastData.None? {
        return Fail(ParseError);
      }
      var parsed := ParseForecast(forecastData.value);
      if parsed.Failure? {
        return Fail(parsed.error);
      }
      forecast := Some(parsed.value);
      r := Pass;
    }

    /** Rebuilds the precipitation series from empty, one value per time entry, then reads the update times. */
    method ParsePrecipitationNowData() returns (r: Outcome)
      modifies this`precipitationNow, this`lastUpdate, this`nextUpdate
      ensures precipitationNowData.None? ==> r.Fail?
      ensures precipitationNowData.Some? ==> (r.Pass? <==> ParsePrecipitationNow(precipitationNowData.value).Success?)
      ensures r.Pass? ==> var p := ParsePrecipitationNow(precipitationNowData.value).value;
                          && precipitationNow == p.values
                          && lastUpdate == Some(p.lastUpdate)
                          && nextUpdate == Some(p.nextUpdate)
      ensures || lastUpdate == old(lastUpdate)
              || (&& precipitationNowData.Some? && lastUpdate.Some?
                  && Stamp(Path(precipitationNowData.value, ["weatherdata", "meta", "lastupdate"])) == Success(lastUpdate.value))
      ensures precipitationNowData.Some? ==>
                var doc := precipitationNowData.value;
                var times := Path(doc, NowTimePath);
                && (times.Success? && times.value.List? && SeriesValues(times.value.items).Success?
                    && Stamp(Path(doc, ["weatherdata", "meta", "lastupdate"])).Success? ==>
                      lastUpdate == Some(Stamp(Path(doc, ["weatherdata", "meta", "lastupdate"])).value))
                && (times.Success? && times.value.List? ==>
                      exists k :: 0 <= k <= |times.value.items| && SeriesValues(times.value.items[..k]) == Success(precipitationNow))
      ensures (|| precipitationNowData.None? || Path(precipitationNowData.value, NowTimePath).Failure?
               || !Path(precipitationNowData.value, NowTimePath).value.List?) ==> precipitationNow == []
    {
      precipitationNow := [];
      if precipitationNowData.None? {
        return Fail(ParseError);
      }
      var doc := precipitationNowData.value;
      var times := Path(doc, NowTimePath);
      if times.Failure? || !times.value.List? {
        return Fail(ParseError);
      }
      var entries := times.value.items;
      var i := 0;
      while i < |entries|
        invariant 0 <= i <= |entries|
        invariant SeriesValues(entries[..i]) == Success(precipitationNow)
        invariant lastUpdate == old(lastUpdate)
      {
        var v := SampleValue(entries[i]);
        if v.Failure? {
          assert SeriesValues(entries[..i + 1]).Failure? by {
            assert entries[..i + 1][..i] == entries[..i];
          }
          SeriesPrefixFails(entries, i + 1);
          return Fail(ParseError);
        }
        assert entries[..i + 1][..i] == entries[..i];
        precipitationNow := precipitationNow + [v.value];
        i := i + 1;
      }
      assert entries[..i] == entries;
      var last := Stamp(Path(doc, ["weatherdata", "meta", "lastupdate"]));
      if last.Failure? {
        return Fail(ParseError);
      }
      lastUpdate := Some(last.value);
      var next := Stamp(Path(doc, ["weatherdata", "meta", "nextupdate"]));
      if next.Failure? {
        return Fail(ParseError);
      }
      nextUpdate := Some(next.value);
      r := Pass;
    }

    /** Sets the two documents from parsed files and extracts both. */
    method ForceLoadFromFiles(forecastFile: Doc, nowFile: Doc) returns (r: Outcome)
      modifies this
      ensures r.Pass? <==> ParseFiles(forecastFile, nowFile).Success?
      ensures r.Pass? ==> Holds(ParseFiles(forecastFile, nowFile).value)
      ensures StoredTrees() == TreesAfterParse(forecastFile, nowFile, old(StoredTrees()))
      ensures out == old(out)
    {
      r := ParseDocs(forecastFile, nowFile);
    }

    /** XML-parses both files (forecast first) and runs both extractions. */
    method ParseDocs(forecastFile: Doc, nowFile: Doc) returns (r: Outcome)
      modifies this`forecastData, this`precipitationNowData, this`forecast,
               this`precipitationNow, this`lastUpdate, this`nextUpdate
      ensures r.Pass? <==> ParseFiles(forecastFile, nowFile).Success?
      ensures r.Pass? ==> Holds(ParseFiles(forecastFile, nowFile).value)
      ensures StoredTrees() == TreesAfterParse(forecastFile, nowFile, old(StoredTrees()))
    {
      if forecastFile.tree.None? {
        return Fail(ParseError);
      }
      forecastData := forecastFile.tree;
      if nowFile.tree.None? {
        return Fail(ParseError);
      }
      precipitationNowData := nowFile.tree;
      r := ParseForecastData();
      if r.Fail? {
        return;
      }
      r := ParsePrecipitationNowData();
    }

    /** Tries the cache; the directory exists, since loading creates it first. */
    method LoadFromCache(cache: Cache, now: Timestamp) returns (r: CacheRead)
      requires currentCacheDir in cache.dirs
      modifies this`forecastData, this`precipitationNowData, this`forecast,
               this`precipitationNow, this`lastUpdate, this`nextUpdate
      ensures r == ReadCache(cache.dirs[currentCacheDir], now)
      ensures r.Fresh? ==> Holds(r.data)
      ensures StoredTrees() == TreesAfterCacheRead(cache.dirs[currentCacheDir], old(StoredTrees()))
    {
      var dir := cache.dirs[currentCacheDir];
      if dir.forecast.None? {
        return Miss;
      }
      if dir.forecast.value.tree.None? {
        return Broken;
      }
      forecastData := dir.forecast.value.tree;
      if dir.precipitationNow.None? {
        return Miss;
      }
      var parsed := ParseDocs(dir.forecast.value, dir.precipitationNow.value);
      if parsed.Fail? {
        return Broken;
      }
      var p := ParseFiles(dir.forecast.value, dir.precipitationNow.value).value;
      if Before(nextUpdate.value, now) {
        return Stale;
      }
      r := Fresh(p);
    }

    /** Downloads both documents, writes both files, then parses them. */
    method LoadFromServer(cache: Cache, forecastDownload: Option<Doc>, nowDownload: Option<Doc>) returns (r: Outcome)
      requires currentCacheDir in cache.dirs
      modifies this`forecastData, this`precipitationNowData, this`forecast,
               this`precipitationNow, this`lastUpdate, this`nextUpdate, cache
      ensures var fetched := Downloaded(forecastDownload, nowDownload);
              && cache.dirs == old(cache.dirs)[currentCacheDir := DirAfterServerLoad(old(cache.dirs[currentCacheDir]), fetched)]
              && (r.Pass? <==> ServerLoad(fetched).Success?)
              && (r.Fail? ==> r.error == ServerLoad(fetched).error)
              && (r.Pass? ==> Holds(ServerLoad(fetched).value))
              && StoredTrees() == TreesAfterServerLoad(fetched, old(StoredTrees()))
    {
      var fetched := Downloaded(forecastDownload, nowDownload);
      if fetched.Failure? {
        return Fail(fetched.error);
      }
      var docs := fetched.value;
      cache.dirs := cache.dirs[currentCacheDir := CacheDir(Some(docs.0), cache.dirs[currentCacheDir].precipitationNow)];
      cache.dirs := cache.dirs[currentCacheDir := CacheDir(Some(docs.0), Some(docs.1))];
      r := ParseDocs(docs.0, docs.1);
      if r.Fail? {
        r := Fail(ServerLoad(fetched).error);
      }
    }

    /**
     * Creates the cache directory when absent, tries the cache, and on a
     * miss or stale data loads from the server.
     */
    method LoadForecastData(cache: Cache, now: Timestamp, forecastDownload: Option<Doc>, nowDownload: Option<Doc>)
      returns (r: Result<Source>)
      modifies this`forecastData, this`precipitationNowData, this`forecast,
               this`precipitationNow, this`lastUpdate, this`nextUpdate, cache
      ensures var dir := if currentCacheDir in old(cache.dirs) then old(cache.dirs)[currentCacheDir] else EmptyDir;
              var fetched := Downloaded(forecastDownload, nowDownload);
              var loaded := Load(dir, now, fetched);
              && cache.dirs == old(cache.dirs)[currentCacheDir := DirAfterLoad(dir, now, fetched)]
              && (r.Success? <==> loaded.Success?)
              && (r.Success? ==> r.value == loaded.value.source && Holds(loaded.value.data))
              && (r.Failure? ==> r.error == loaded.error)
              && StoredTrees() == TreesAfterLoad(dir, now, fetched, old(StoredTrees()))
    {
      if currentCacheDir !in cache.dirs {
        cache.dirs := cache.dirs[currentCacheDir := EmptyDir];
      }
      ghost var dir := cache.dirs[currentCacheDir];
      var read := LoadFromCache(cache, now);
      match read {
        case Fresh(_) =>
          r := Success(FromCache);
        case Broken =>
          r := Failure(ParseError);
        case _ =>
          var loaded := LoadFromServer(cache, forecastDownload, nowDownload);
          if loaded.Fail? {
            r := Failure(loaded.error);
          } else {
            r := Success(FromServer);
          }
      }
    }

    /** Prints the forecast row. */
    method PrintForecast(fmt: real -> string)
      requires forecast.Some?
      modifies this`out
      ensures out == old(out) + ForecastRow(forecast.value, fmt)
    {
      out := out + ForecastRow(forecast.value, fmt);
    }

    /** Prints the credit text and its URL. */
    method PrintCredit()
      requires forecast.Some?
      modifies this`out
      ensures out == old(out) + CreditLines(forecast.value)
    {
      out := out + CreditLines(forecast.value);
    }

    /** Draws the precipitation series: one glyph row, or threshold rows and the time axis. */
    method PlotPrecipitation(barHeight: int, barWidth: nat, fmt1: real -> string) returns (ok: bool)
      modifies this`out
      ensures ok <==> Chart(precipitationNow, barHeight, barWidth, timeStampLabels, fmt1).Some?
      ensures ok ==> out == old(out) + Chart(precipitationNow, barHeight, barWidth, timeStampLabels, fmt1).value
      ensures !ok ==> out == old(out)
    {
      ghost var start := out;
      if barHeight == 1 {
        PlotGlyphs();
        out := out + "\n";
        AppendAssoc(start, GlyphRow(precipitationNow), "\n");
        return true;
      }
      if barHeight == 0 {
        return false;
      }
      PlotBars(barHeight, barWidth, fmt1);
      PlotAxis(barWidth);
      AppendAssoc(start, ChartLines(precipitationNow, Thresholds(barHeight), barWidth, fmt1),
                  AxisRow(timeStampLabels, barWidth));
      ok := true;
    }

    /** The threshold rows, from the top one down. */
    method PlotBars(barHeight: int, barWidth: nat, fmt1: real -> string)
      requires barHeight != 0
      modifies this`out
      ensures out == old(out) + ChartLines(precipitationNow, Thresholds(barHeight), barWidth, fmt1)
    {
      var thresholds := EqualSpaced(PrecipitationMax, -PrecipitationMax / (barHeight as real), barHeight);
      var row := 0;
      while row < |thresholds|
        invariant 0 <= row <= |thresholds|
        invariant out == old(out) + ChartLines(precipitationNow, thresholds[..row], barWidth, fmt1)
      {
        assert thresholds[..row + 1][..row] == thresholds[..row];
        assert ChartLines(precipitationNow, thresholds[..row + 1], barWidth, fmt1)
            == ChartLines(precipitationNow, thresholds[..row], barWidth, fmt1)
               + ChartLine(precipitationNow, thresholds[row], barWidth, fmt1);
        PlotBarRow(thresholds[row], barWidth, fmt1);
        AppendAssoc(old(out), ChartLines(precipitationNow, thresholds[..row], barWidth, fmt1),
                    ChartLine(precipitationNow, thresholds[row], barWidth, fmt1));
        row := row + 1;
      }
      assert thresholds[..row] == thresholds;
    }

    /** The time axis under the bars. */
    method PlotAxis(barWidth: nat)
      modifies this`out
      ensures out == old(out) + AxisRow(timeStampLabels, barWidth)
    {
      out := out + AxisRow(timeStampLabels, barWidth);
    }

    /** The single-row chart: one glyph per sample. */
    method PlotGlyphs()
      modifies this`out
      ensures out == old(out) + GlyphRow(precipitationNow)
    {
      var ps := precipitationNow;
      var i := 0;
      while i < |ps|
        invariant 0 <= i <= |ps|
        invariant out == old(out) + GlyphRow(ps[..i])
      {
        assert ps[..i + 1][..i] == ps[..i];
        AppendAssoc(old(out), GlyphRow(ps[..i]), Glyph(ps[i]));
        out := out + Glyph(ps[i]);
        i := i + 1;
      }
      assert ps[..i] == ps;
    }

    /** One threshold row: its label, then a filled or blank cell per sample. */
    method PlotBarRow(t: real, barWidth: nat, fmt1: real -> string)
      modifies this`out
      ensures out == old(out) + ChartLine(precipitationNow, t, barWidth, fmt1)
    {
      var ps := precipitationNow;
      out := out + (fmt1(t) + " |");
      ghost var head := out;
      var k := 0;
      while k < |ps|
        invariant 0 <= k <= |ps|
        invariant out == head + Cells(ps[..k], t, barWidth)
      {
        var cell: string;
        if ps[k] > t {
          cell := Repeat('|', barWidth);
        } else {
          cell := Repeat(' ', barWidth);
        }
        assert cell == Cell(ps[k], t, barWidth);
        CellsPrefixStep(ps, t, barWidth, k);
        AppendAssoc(head, Cells(ps[..k], t, barWidth), cell);
        out := out + cell;
        k := k + 1;
      }
      assert ps[..k] == ps;
      out := out + "\n";
      AppendAssoc3(old(out), fmt1(t) + " |", Cells(ps, t, barWidth), "\n");
    }

    /** The "now" view: forecast row and chart as asked, then the credit. */
    method Now(showPrecipitationNow: bool, showForecastRow: bool, barHeight: int, barWidth: nat,
               fmt: real -> string, fmt1: real -> string) returns (ok: bool)
      requires forecast.Some?
      modifies this`out
      ensures var printed := NowOutput(forecast.value, precipitationNow, showPrecipitationNow, showForecastRow,
                                       barHeight, barWidth, timeStampLabels, fmt, fmt1);
              ok == printed.complete && out == old(out) + printed.text
    {
      ghost var start := out;
      ghost var row := if showForecastRow then ForecastRow(forecast.value, fmt) else "";
      if showForecastRow {
        PrintForecast(fmt);
      }
      assert out == start + row;
      if showPrecipitationNow {
        ok := PlotPrecipitation(barHeight, barWidth, fmt1);
        if !ok {
          return;
        }
        ghost var chart := Chart(precipitationNow, barHeight, barWidth, timeStampLabels, fmt1).value;
        PrintCredit();
        AppendAssoc3(start, row, chart, CreditLines(forecast.value));
      } else {
        PrintCredit();
        AppendAssoc(start, row, CreditLines(forecast.value));
      }
      ok := true;
    }
  }

  lemma {:induction false} SeriesPrefixFails(entries: seq<Node>, i: nat)
    requires i <= |entries|
    requires SeriesValues(entries[..i]).Failure?
    ensures SeriesValues(entries).Failure?
  {
    var j :| 0 <= j < i && SampleValue(entries[..i][j]).Failure?;
    assert entries[j] == entries[..i][j];
  }
}
